=== FILE: README.md ===
# Blitzr API client: a Dafny model

This project models the core of the Blitzr Python API client, which wraps the
Blitzr music-catalogue HTTP API in two packages: the current `blitzr` package
and the legacy `blitzrpythonclient` package. The model covers these parts:

- **The constructor and the request executor** (`Executor`). `BlitzrClient`
  refuses an empty or missing API key. `_request` builds
  `BASE_URL + path`, adds the `key` parameter, and sends one GET request
  through an abstract transport. It returns the decoded body or classifies
  the failure:
  - `ServerException` for a status of 500 or more, with a message naming the
    status;
  - `ClientException` for a status from 400 to 499, carrying the decoded
    body;
  - `NetworkException` for a connection failure.

  The constructor raises the fourth exception, `ConfigurationException`, for a
  missing key. Any other exception of the HTTP library passes through
  `_request` unclassified and is not modelled (see "Left out").
- **The serialisation idioms** (`Query`):
  - a list option becomes `','.join(xs) if xs else None`;
  - a boolean flag becomes `'true'`/`'false'`;
  - the biography `format` becomes `'html'` or `None`;
  - `start` and `limit` are added to a method's parameters.
- **The offset/limit paginating loop** (`Pagination`): request a page at
  `start`, yield its elements, advance by `limit`, and stop after a page
  shorter than `limit`.
- **How each method uses the executor** (`Endpoints`): a method returns the
  body, yields the elements of one body, or runs the loop. The module also
  holds the parameter builders of a representative set of wrapper methods,
  including the shop path segment `'buy/artist/' + product_type + '/'`.
- **The `SearchGenerator` class** (`SearchGenerator`): its state
  (`start`, `cursor`, `results`, `_length`), and its operations `next`,
  `_request` and `__len__`. `GeneratorLaws` holds what is proved of it
  against a well-behaved server.
- **The legacy package's search methods** (`Legacy`). These are plain
  paginating loops. `search_track` sends no `autocomplete` key, and
  `get_harmonia_search_by_source` returns the body instead of iterating it.

The legacy package's constructor and `_request`
(blitzrpythonclient/client.py:8-27) are the same as the current ones
(blitzr/client.py:65-88). So are its paginating methods, such as
`get_artist_bands` (blitzrpythonclient/client.py:50-62), and its
`get_shop_artist` (blitzrpythonclient/client.py:408-413). They are modelled
once, by `Executor`, `Pagination` and `Endpoints`.

The transport is a pure function from the outgoing request (URL and
parameter map) to an outcome: a status with a decoded JSON body, or a
connection failure. A generator's laziness is modelled by a count: `pulls`
is how many times the consumer calls `next`, and `budget` is how many
requests a loop may make before the consumer stops. Python's `None` is
`JNull` among JSON values and `Null` among query parameters.

Three behaviours of the code worth stating plainly:

- Keys set to `None` stay in the parameter dictionary handed to the
  transport (tests/test_methods.py:22-25; `GetArtistBySlugKeepsNulls`).
  Dropping them from the actual URL is done by the HTTP library, which is
  not part of this model.
- For 40 elements in pages of 10, the loop yields 40 items in five
  requests; the fifth, at offset 40, gets the empty page that ends it
  (`ExactMultipleCostsOneMoreRequest`).
- `__len__` returns a total of 0 without a request, because it tests
  `self._length or self._length == 0` (blitzr/client.py:1209; `Len`).

## Model

| member | source | states |
|---|---|---|
| Executor.NewClient | blitzr/client.py:65-70 | A client is built exactly when the key is present and non-empty, and it keeps that key. Otherwise the result is a ConfigurationError with the message 'api_key is missing.' |
| Executor.Outgoing | blitzr/client.py:72-75 | The request goes to BASE_URL followed by the method path. Its parameters are the caller's parameters plus `key`, set to the client's API key, and every other parameter is passed through unchanged. |
| Executor.RequestSendsKeyOnly | tests/test_methods.py:13-15 | A request with no parameters sends only the key, to BASE_URL followed by the path. |
| Executor.Request | blitzr/client.py:72-88 | The request succeeds exactly when the transport answers with a status below 400, and then returns the decoded body. A connection failure gives a NetworkError with the failure's text. A status from 400 to 499 gives a ClientError carrying the body. A status of 500 or more gives a ServerError whose message names that status. The executor never raises a ConfigurationError. |
| Executor.ServerMessageNamesStatus | blitzr/client.py:80-83 | The server-error message can be parsed back to the exact status code that caused it. |
| Executor.ResultDeterminesOutcome | blitzr/client.py:76-88 | Two transports that lead to the same executor result agree on what matters: whether the connection failed and with which message, whether the error was on the client or the server side, the server status, and the body of a client error. |
| Decimal.ParseShow | blitzr/client.py:82-83 | `str(status)` rendered in decimal parses back to the same number. |
| Decimal.ShowInjective | blitzr/client.py:82-83 | Two different statuses never render to the same decimal text. |
| Query.ListParam | blitzr/client.py:115 | A joined list parameter is `None` exactly when the list is empty. |
| Query.SplitJoin | blitzr/client.py:115 | Splitting a comma-joined list of comma-free strings gives back the list. |
| Query.ListParamRoundTrip | blitzr/client.py:333 | A list option such as `filters` can be read back from the parameter the method sends, when no element contains a comma. |
| Query.Flag | blitzr/client.py:304 | A boolean flag is sent as exactly one of the literals 'true' and 'false', and reads back as the same boolean. |
| Query.HtmlFormat | blitzr/client.py:186 | `format` is 'html' exactly when HTML was asked for, and `None` exactly when it was not. |
| Query.WithWindow | blitzr/client.py:151-157 | The loop's query holds the method's parameters, with `start` and `limit` set to the current offset and page size. No other key is added or changed. |
| Pagination.Paginate | blitzr/client.py:151-162 | The loop makes at most `budget` requests, and at least one when `budget` is not zero. Its k-th request asks for offset `start + k*limit`. Every page before the last was full, meaning at least `limit` elements. |
| Pagination.StopsAsStated | blitzr/client.py:151-162 | The loop ends in one of three ways: its last page was shorter than `limit`, its last request failed with that failure, or it used its whole budget and the last page was full. |
| Pagination.YieldsEveryPage | blitzr/client.py:157-159 | The items yielded are the pages fetched, in order and concatenated. |
| Pagination.MorePullsExtend | blitzr/client.py:151-162 | A consumer that pulls further sees a continuation of the same items and requests. Pulling more never changes what was already yielded. |
| Pagination.EndedWalkIsFinal | blitzr/client.py:160-162 | Once the loop has broken out or failed, a larger budget changes nothing. |
| Pagination.PaginateWindows | blitzr/client.py:151-162 | Against a server that serves `data` in windows, the loop yields exactly `data[start..]` and ends on a short page. Its last offset is the first one whose window reaches past the data. |
| Pagination.ShortLastPage | blitzr/client.py:151-162 | For 34 elements in pages of 10, the loop yields 34 items from the offsets 0, 10, 20 and 30. |
| Pagination.ExactMultipleCostsOneMoreRequest | blitzr/client.py:151-162 | For 40 elements in pages of 10, the loop yields 40 items. It needs a fifth request at offset 40, whose empty page ends the loop. |
| Pagination.ZeroLimitNeverEnds | blitzr/client.py:160-162 | With a limit of 0 no page is ever short, so the loop only ends when a request fails or the consumer stops. |
| Endpoints.AsPage | blitzr/client.py:129-134 | Iterating a body succeeds exactly when the body is a JSON array, and then gives the array's elements. An executor error is re-raised unchanged. A successful body that is not an array is a `Malformed` fault, never a library exception, since only the executor raises those. |
| Endpoints.PagedCall | blitzr/client.py:151-162 | The k-th request of a paginating method carries the method's parameters, the key, offset `start + k*limit` and `limit`. There are at most `budget` requests. |
| Endpoints.Call | blitzr/client.py:112-134 | A single-body method is eager: it sends exactly one request whatever the consumer does, and returns the executor's result. A listing method is a generator: before the first pull it has sent nothing; once pulled it sends exactly one request and yields the elements of an array body, and yields only when the body is one; an executor error is re-raised as is. A paginating method is exactly the paginating loop `PagedCall` over its path and parameters from its `start` in steps of its `limit`. It sends at most `budget` requests, and at least one once pulled. |
| Endpoints.GetArtist | blitzr/client.py:96-117 | `get_artist` sends the keys uuid, slug, extras and extras_limit. `extras` is `None` exactly when no extras were asked for, and otherwise reads back as the list that was asked for. |
| Endpoints.GetArtistAliases | blitzr/client.py:119-134 | `get_artist_aliases` lists the body of `artist/aliases/`, queried with uuid and slug. |
| Endpoints.GetArtistBiography | blitzr/client.py:164-188 | `get_artist_biography` sends five keys. `format` is 'html' or `None` according to `html_format`. |
| Endpoints.GetArtistBands | blitzr/client.py:136-162 | `get_artist_bands` paginates `artist/bands/` from `start` in steps of `limit`, with uuid and slug. |
| Endpoints.GetArtistReleases | blitzr/client.py:274-310 | `get_artist_releases` paginates and sends type and format as given. `credited` is a flag that reads back as the argument. |
| Endpoints.GetArtistSimilar | blitzr/client.py:312-341 | `get_artist_similar` paginates `artist/similars/`. `filters` is `None` exactly when it is empty, and otherwise reads back as the list. |
| Endpoints.SearchCity | blitzr/client.py:887-920 | `search_city` paginates with the query, coordinates and an `autocomplete` flag. |
| Endpoints.GetHarmoniaSearchBySource | blitzr/client.py:499-522 | The current `get_harmonia_search_by_source` lists the body. It sends the source name and id, the joined `source_filters` (`None` when empty) and a `strict` flag. |
| Endpoints.GetShopArtist | blitzr/client.py:951-968 | The product type is embedded in the path, between 'buy/artist/' and the final '/'. It can be recovered from the path. |
| Endpoints.GetArtistBySlugKeepsNulls | tests/test_methods.py:22-25 | `get_artist(slug='toto')` sends the key, the slug and `None` for uuid, extras and extras_limit. |
| SearchGenerator.Create | blitzr/client.py:1159-1171 | A new generator keeps its configuration and starting offset. It starts with cursor -1, no results and an unknown length. |
| SearchGenerator.SearchPath | blitzr/client.py:796-864 | Each search entity has its own endpoint of the form `search/<entity>/`. |
| SearchGenerator.Search | blitzr/client.py:796-864 | `search_artist`, `search_label` and `search_release` return a fresh generator that carries the caller's query, filters, flags, offset and limit. |
| SearchGenerator.SearchWithDefaults | blitzr/client.py:796-817 | Called with the query alone, a search generator has no filters, `autocomplete` off, `extras` on, offset 0 and limit 10, and has fetched nothing. |
| SearchGenerator.SearchTrack | blitzr/client.py:866-885 | `search_track` returns a fresh generator on `search/track/` whose autocomplete is `None`, so it sends 'false'. |
| SearchGenerator.QueryAt | blitzr/client.py:1192-1199 | The generator's query has exactly six keys. The query passes through, the filters are `None` exactly when empty and otherwise read back, the two flags read back, and `start` and `limit` hold the current offset and the page size. |
| SearchGenerator.Fetch | blitzr/client.py:1191-1205 | A failed request raises its error and changes no state. A successful one advances `start` by `limit`. It stores the answer as results when extras are off. When extras are on, it stores the answer's `results` and `total` entries, which are missing when absent. The cursor is never touched. |
| SearchGenerator.Emit | blitzr/client.py:1186-1189 | The element at the cursor is returned when the cursor is within the results. StopIteration is raised exactly when it is past them. A page that is not a list is a `Malformed` fault. |
| SearchGenerator.Next | blitzr/client.py:1179-1189 | `next` makes a request exactly when there are no results yet or the advanced cursor reaches `limit`, and it asks at the current `start`. Without a request it is exactly: advance the cursor, then return the element under it if the held page has one and raise StopIteration otherwise. After a successful request the cursor is 0 and `start` has moved on. A failed request leaves the cursor advanced and raises. |
| SearchGenerator.NextAfterFetch | blitzr/client.py:1181-1189 | When `next` fetches: on success it resets the cursor to 0 on the fetched page and emits from it, so it yields exactly when that page has a first element; on failure it raises the fetch's fault and keeps the fetch's state. |
| SearchGenerator.Len | blitzr/client.py:1207-1216 | A known total, including 0, is returned without a request. An unknown total is fetched with exactly one request when extras are on: that request keeps the cursor, and on an object answer `len` returns its `total` and the page becomes its `results`; a failed request raises its error and changes nothing; an answer that is not an object is a fault, and `start` has already moved on. Whatever the answer, the new state is exactly the state `_request` leaves, so client, endpoint, query, filters, flags and limit never change. When extras are off and the total is unknown, `len` raises a ConfigurationException with the documented message (GeneratorLaws.NoExtrasNeverCounts shows the total stays unknown then). |
| SearchGenerator.Drain | blitzr/client.py:1173-1189 | Iterating a generator never ends on a yield, and it yields at most one item per pull. |
| GeneratorLaws.DrainIsProbesUntilEnd | blitzr/client.py:1173-1189 | `for x in gen` sees the same steps as `next` called with every exception caught, up to the first step that is not an item. Iteration ends on exactly that step, so a StopIteration ends it and any other failure is re-raised unchanged. If it did not end, every pull yielded. |
| GeneratorLaws.ProbesKeepLength | blitzr/client.py:1179-1205 | Any number of `next` calls keep the configuration. Without extras they also keep the memoised total, whatever the server answers. |
| GeneratorLaws.NoExtrasNeverCounts | blitzr/client.py:1207-1216 | A generator created with extras off never learns a total. After any number of `next` calls, `len` raises the ConfigurationException without a request. |
| SearchGenerator.Probes | blitzr/client.py:1179-1189 | `n` calls of `next`, the caller catching every exception (StopIteration, executor errors and the rest), give exactly `n` steps, and the generator is asked again after each. |
| GeneratorLaws.QuietStep | blitzr/client.py:1181-1183 | With results present and the cursor short of `limit`, `next` makes no request. |
| GeneratorLaws.QuietProbes | blitzr/client.py:1179-1189 | Once a page is exhausted, each further `next` before the cursor reaches `limit` raises StopIteration without a request. |
| GeneratorLaws.StoppedGeneratorRefetches | blitzr/client.py:1179-1189 | An exhausted generator answers StopIteration exactly `limit - 1 - cursor` more times. The next call requests the following page at the current `start`. |
| GeneratorLaws.FetchFromServer | blitzr/client.py:1191-1205 | Against a well-behaved server, a fetch stores the window at `start` and advances `start` by `limit`. With extras, it stores the size of the data as the total. |
| GeneratorLaws.RefillStep | blitzr/client.py:1181-1183 | When the cursor reaches `limit`, `next` fetches the next window and emits from its start. |
| GeneratorLaws.RefillYields | blitzr/client.py:1181-1189 | A non-empty next window makes `next` yield its first element, which is the data element at the old `start`. |
| GeneratorLaws.DrainFrom | blitzr/client.py:1179-1189 | From any position inside a served page, iteration yields the rest of the data in order and then ends with StopIteration. |
| GeneratorLaws.DrainWithinPage | blitzr/client.py:1186-1187 | From a position that is not the last in its page, iteration continues within the page and yields the rest of the data. |
| GeneratorLaws.DrainAdvanced | blitzr/client.py:1179-1187 | After one step within a page, the remaining pulls still yield the rest of the data. |
| GeneratorLaws.EndOnBoundary | blitzr/client.py:1181-1189 | When the data ends exactly at a page boundary, the extra request returns an empty page and iteration stops. |
| GeneratorLaws.DrainAcrossPages | blitzr/client.py:1181-1189 | At a page boundary with more data, iteration refetches and continues across pages. |
| GeneratorLaws.DrainRefilled | blitzr/client.py:1181-1189 | After a refetch, the remaining pulls yield the rest of the data. |
| GeneratorLaws.IteratesEverything | blitzr/client.py:1179-1205 | A fresh generator on a well-behaved server yields exactly the data from its starting offset on, then stops. |
| GeneratorLaws.CountThenIterate | blitzr/client.py:1207-1216 | With extras on, `len` of a fresh generator costs one request and returns the server's total. A second `len` is free. Iterating afterwards still yields every element from the starting offset. |
| GeneratorLaws.LenThenNextReusesPage | blitzr/client.py:1179-1187 | After `len` on a fresh generator, the cursor is still -1. The first `next` then returns element 0 of the page `len` fetched, with no new request. |
| GeneratorLaws.OversizedPageIsTruncated | blitzr/client.py:1181-1183 | A server that returns more elements than `limit` has its extra elements skipped: with limit 1 and the page [a, b] served everywhere, two pulls yield a twice, from offsets 0 and 1. |
| Legacy.Search | blitzrpythonclient/client.py:312-358 | The legacy `search_artist`, `search_label` and `search_release` paginate the entity's search path. They send the query, the joined filters, and `autocomplete` and `extras` flags that read back as the arguments. |
| Legacy.SearchWithDefaults | blitzrpythonclient/client.py:312 | The legacy search called with the query alone paginates from 0 in pages of 10, with no filters, `autocomplete='true'` and `extras='false'`. |
| Legacy.DefaultsDiffer | blitzrpythonclient/client.py:312 | Called with the query alone, the two clients send different queries: the legacy one `autocomplete='true'` and `extras='false'`, the current one `autocomplete='false'` and `extras='true'`. All other keys agree. |
| Legacy.SearchTrack | blitzrpythonclient/client.py:360-373 | The legacy `search_track` paginates `search/track/` with the query, filters and extras, and sends no `autocomplete` key. |
| Legacy.GetHarmoniaSearchBySource | blitzrpythonclient/client.py:213-219 | The legacy method sends the same path and parameters as the current one, but returns the body instead of listing it. |
| Legacy.HarmoniaClientsDiffer | blitzrpythonclient/client.py:213-219 | The legacy method sends its one request when called and returns the executor's result as is. The current one sends nothing until pulled; once pulled it sends the same request and yields that result's elements. |
| Legacy.SearchQueryMatchesGenerator | blitzrpythonclient/client.py:312-326 | At every offset, the legacy loop's query equals the current generator's query for the same search. |
| Legacy.TrackQueryDiffersInAutocomplete | blitzrpythonclient/client.py:360-373 | The legacy track query is the current one minus `autocomplete`, which the current generator sends as 'false'. |
| Legacy.SearchAgreesWithGenerator | blitzrpythonclient/client.py:312-358 | Without extras on a well-behaved server, the legacy loop and the current generator both yield exactly the data from the starting offset. The loop ends on a short page. |

## Left out

- HTTP, URL encoding and JSON decoding are not modelled. The transport is an
  abstract function from request to outcome. This also leaves out the HTTP
  library dropping `None` parameters from the URL it builds.
- Executor.Request: only statuses from 100 to 599 are modelled. A status
  outside that range that `raise_for_status` does not reject would be
  returned as a body, which is not modelled.
- Executor.Request: `_request` catches only `HTTPError` and
  `ConnectionError`. Any other exception of the HTTP library passes through
  unclassified, for example a read timeout, too many redirects or an invalid
  URL. So does a `ValueError` from decoding a body that is not JSON. The
  transport here has no such outcome, so the model does not cover them.
- Laziness is modelled by counts: `budget` for the loop and `pulls` for the
  generator. Interleaving of the consumer with the requests is not modelled
  beyond that.
- A body that is iterated but is not a JSON array, and an `extras` answer
  that is not a JSON object, become a `Malformed` fault. Python would
  instead iterate a string's characters or a dictionary's keys, or raise a
  TypeError or an AttributeError. The legacy search loops with
  `extras=True` would iterate the keys of the answer object; the model
  treats that as `Malformed` too.
- SearchGenerator.Emit: the generator's page is indexed, not iterated
  (blitzr/client.py:1186-1187). When the page is not a JSON array, Python
  raises StopIteration for an empty string or object, raises KeyError for a
  non-empty object, yields the characters of a non-empty string, and raises
  TypeError for a number, a boolean or `None`. The model gives
  `Fail(Malformed)` in every one of these cases.
- SearchGenerator.Len: Python's `len()` accepts only a non-negative
  integer from `__len__`. A total that is not an integer raises a
  TypeError, and a negative integer raises a ValueError. The model returns
  the total as it is in both cases.
- Default arguments are modelled only for the search methods
  (`SearchWithDefaults` in both clients). Every other method is modelled
  with all of its arguments explicit. This includes the `start=0, limit=10`
  defaults of the paginating methods.
- Aliasing and in-place updates are not modelled. `SearchGenerator.__init__`
  keeps a reference to the caller's `filters` list
  (blitzr/client.py:1164). `_request` joins that list again on every fetch
  (:1194), and the paginating loops such as `get_artist_similar` do the same
  on every pass (:333). So a caller who changes the list between pulls
  changes the later queries. `_request` also writes `key` into the caller's
  own dictionary (:75). The model holds the filters as an immutable
  sequence (`Config.filters`) and builds the outgoing dictionary as a new
  value (`Executor.Outgoing`). The caller's objects therefore never change,
  and later queries see the filters as they were at the call.
- Floats, dates and the other scalar parameter values are opaque
  (`Param.Opaque`).
- The remaining wrapper methods are not modelled, because they differ from
  the modelled ones only in path and parameter names. These include events,
  labels, releases, tracks, tags, harmonia lookups, search_country, the
  other shop methods and their legacy twins.
- blitzr/exceptions.py is kept only as the `BlitzrError` datatype. The
  exception class hierarchy (`IOError`) is not modelled.
- Requests are not repeated to check that they are idempotent. The
  transport is a pure function, so repeating a request trivially gives the
  same outcome.

=== FILE: decimal.dfy ===
/** Decimal rendering of non-negative integers, as Python's `str(n)` does it,
    and the parse that undoes it. */
module Decimal {

  predicate IsDigit(c: char) {
    '0' <= c <= '9'
  }

  predicate AllDigits(s: string) {
    forall i :: 0 <= i < |s| ==> IsDigit(s[i])
  }

  function DigitChar(d: nat): (c: char)
    requires d < 10
    ensures IsDigit(c)
    ensures c == '0' <==> d == 0
  {
    ('0' as int + d) as char
  }

  function DigitValue(c: char): (d: nat)
    requires IsDigit(c)
    ensures d < 10
    ensures DigitChar(d) == c
  {
    c as int - '0' as int
  }

  /** `str(n)`: at least one digit, only digits, no leading zero. */
  function Show(n: nat): (s: string)
    ensures |s| >= 1
    ensures AllDigits(s)
    ensures s[0] != '0' || n == 0
    decreases n
  {
    if n < 10 then [DigitChar(n)] else Show(n / 10) + [DigitChar(n % 10)]
  }

  /** `int(s)` for a string of decimal digits (the empty string reads as 0). */
  function Parse(s: string): nat
    requires AllDigits(s)
    decreases |s|
  {
    if s == [] then 0 else Parse(s[..|s| - 1]) * 10 + DigitValue(s[|s| - 1])
  }

  /** Reading back what `Show` wrote gives the number again. */
  lemma {:induction false} ParseShow(n: nat)
    ensures Parse(Show(n)) == n
    decreases n
  {
    if n >= 10 {
      var s := Show(n);
      assert s[..|s| - 1] == Show(n / 10);
      assert s[|s| - 1] == DigitChar(n % 10);
      ParseShow(n / 10);
    }
  }

  /** Distinct numbers are rendered differently. */
  lemma ShowInjective(m: nat, n: nat)
    requires Show(m) == Show(n)
    ensures m == n
  {
    ParseShow(m);
    ParseShow(n);
  }
}

=== FILE: endpoints.dfy ===
/** The public methods of `BlitzrClient`, as a declarative table: each is a
    path, a parameter dictionary and one of three ways of using the request
    executor. A handful of representative entries is modelled; the other
    methods differ from them only in path and parameter names. */
module Endpoints {
  import opened Wrappers
  import opened Json
  import opened Errors
  import opened Query
  import opened Executor
  import opened Pagination

  /** How a method uses the executor: return the decoded body of one request
      (`return self._request(...)`), yield every element of the body of one
      request (`for x in self._request(...): yield x`), or run the paginating
      loop from `start` in steps of `limit`. */
  datatype Mode = Single | Listed | Paged(start: int, limit: int)

  datatype Endpoint = Endpoint(path: string, params: Params, mode: Mode)

  /** What a call produced. A listing method is a Python generator: until
      the consumer pulls once it has run no code at all (`Pending`). */
  datatype Reply =
    | Body(result: Result<Json, BlitzrError>)
    | Pending
    | Elements(page: Result<seq<Json>, Fault>)
    | Walked(items: seq<Json>, stop: Stop)

  /** A call's reply and the requests it handed to the transport, in order. */
  datatype Outcome = Outcome(reply: Reply, sent: seq<HttpRequest>)

  /** A decoded body used as a list: only a JSON array is one. */
  function AsPage(r: Result<Json, BlitzrError>): (p: Result<seq<Json>, Fault>)
    ensures r.Err? ==> p == Err(Raise(r.error))
    ensures r.Ok? ==> (p.Ok? <==> r.value.JArr?)
    ensures r.Ok? && !r.value.JArr? ==> p.Err? && p.error.Malformed?
    ensures p.Ok? ==> r == Ok(JArr(p.value))
  {
    match r
    case Err(e) => Err(Raise(e))
    case Ok(JArr(items)) => Ok(items)
    case Ok(_) => Err(Malformed("the answer is not a list"))
  }

  /** The page source of a paginating method: the page for offset `s` is the
      answer to the method's parameters with `start = s`. */
  function PagesOf(c: Client, net: Transport, path: string, base: Params, limit: int): PageSource {
    s => AsPage(Request(c, net, path, WithWindow(base, s, limit)))
  }

  /** The paginating loop of a method: its k-th request carries the
      method's parameters (`None` values included), the key,
      `start + k * limit` and `limit`. It stops after at most `budget`
      requests, and before that only after a page shorter than `limit` or a
      failed request. */
  function PagedCall(c: Client, net: Transport, path: string, base: Params, start: int, limit: int, budget: nat): (o: Outcome)
    ensures o.reply.Walked?
    ensures |o.sent| <= budget
    ensures budget > 0 ==> |o.sent| >= 1
    ensures forall k :: 0 <= k < |o.sent| ==>
      o.sent[k] == Outgoing(c, path, WithWindow(base, start + k * limit, limit))
  {
    var w := Paginate(PagesOf(c, net, path, base, limit), start, limit, budget);
    RequestsAtOffsets(c, path, base, start, limit, w.starts);
    Outcome(Walked(w.items, w.stop), RequestsAt(c, path, base, limit, w.starts))
  }

  lemma RequestsAtOffsets(c: Client, path: string, base: Params, start: int, limit: int, starts: seq<int>)
    requires starts == Offsets(start, limit, |starts|)
    ensures forall k :: 0 <= k < |starts| ==>
      RequestsAt(c, path, base, limit, starts)[k] == Outgoing(c, path, WithWindow(base, start + k * limit, limit))
  {
    forall k | 0 <= k < |starts|
      ensures RequestsAt(c, path, base, limit, starts)[k] == Outgoing(c, path, WithWindow(base, start + k * limit, limit))
    {
      OffsetAt(start, limit, |starts|, k);
    }
  }

  /** The requests of a paginating loop that asked for the offsets `starts`. */
  function RequestsAt(c: Client, path: string, base: Params, limit: int, starts: seq<int>): (sent: seq<HttpRequest>)
    ensures |sent| == |starts|
    ensures forall k :: 0 <= k < |starts| ==> sent[k] == Outgoing(c, path, WithWindow(base, starts[k], limit))
  {
    seq(|starts|, k requires 0 <= k < |starts| => Outgoing(c, path, WithWindow(base, starts[k], limit)))
  }

  /** Calling a method, where `budget` is how many requests the consumer lets
      a generator method make. A single-request method is eager: it sends
      exactly one request, its own parameters plus the key, whatever the
      budget, and returns the executor's result. A listed method is a
      generator: with no budget it sends nothing, otherwise it sends one
      request and yields the elements of the answer, which must be a list. A
      paginating method runs `PagedCall`. */
  function Call(c: Client, net: Transport, e: Endpoint, budget: nat): (o: Outcome)
    ensures e.mode.Single? ==> o.sent == [Outgoing(c, e.path, e.params)]
    ensures e.mode.Single? ==> o.reply == Body(Request(c, net, e.path, e.params))
    ensures e.mode.Listed? && budget == 0 ==> o.reply == Pending && o.sent == []
    ensures e.mode.Listed? && budget > 0 ==> o.sent == [Outgoing(c, e.path, e.params)]
    ensures e.mode.Listed? && budget > 0 ==> o.reply == Elements(AsPage(Request(c, net, e.path, e.params)))
    ensures e.mode.Listed? && budget > 0 ==>
      && o.reply.Elements?
      && (o.reply.page.Ok? ==> Request(c, net, e.path, e.params) == Ok(JArr(o.reply.page.value)))
      && (Request(c, net, e.path, e.params).Ok? && Request(c, net, e.path, e.params).value.JArr? ==> o.reply.page.Ok?)
    ensures e.mode.Paged? ==> o.reply.Walked? && |o.sent| <= budget
    ensures e.mode.Paged? && budget > 0 ==> |o.sent| >= 1
    ensures e.mode.Paged? ==> o == PagedCall(c, net, e.path, e.params, e.mode.start, e.mode.limit, budget)
  {
    match e.mode
    case Single =>
      Outcome(Body(Request(c, net, e.path, e.params)), [Outgoing(c, e.path, e.params)])
    case Listed =>
      if budget == 0 then Outcome(Pending, [])
      else Outcome(Elements(AsPage(Request(c, net, e.path, e.params))), [Outgoing(c, e.path, e.params)])
    case Paged(start, limit) =>
      PagedCall(c, net, e.path, e.params, start, limit, budget)
  }

  /** `get_artist`: one request to `artist/`; the `extras` list is sent
      comma-joined, or as `None` when empty; keys the caller left at `None`
      stay in the dictionary. */
  function GetArtist(uuid: Param, slug: Param, extras: seq<string>, extrasLimit: Param): (e: Endpoint)
    ensures e.path == "artist/" && e.mode == Single
    ensures e.params.Keys == {"uuid", "slug", "extras", "extras_limit"}
    ensures e.params["uuid"] == uuid && e.params["slug"] == slug && e.params["extras_limit"] == extrasLimit
    ensures e.params["extras"] == Null <==> extras == []
    ensures CommaFree(extras) ==> ListOf(e.params["extras"]) == extras
  {
    ListParamRoundTrip(extras);
    Endpoint("artist/", map["uuid" := uuid, "slug" := slug, "extras" := ListParam(extras), "extras_limit" := extrasLimit], Single)
  }

  /** `get_artist_aliases`: yields every element of one answer. */
  function GetArtistAliases(uuid: Param, slug: Param): (e: Endpoint)
    ensures e.path == "artist/aliases/" && e.mode == Listed
    ensures e.params.Keys == {"uuid", "slug"}
    ensures e.params["uuid"] == uuid && e.params["slug"] == slug
  {
    Endpoint("artist/aliases/", map["uuid" := uuid, "slug" := slug], Listed)
  }

  /** `get_artist_biography`: `format` is `'html'` when HTML markup is asked
      for, `None` otherwise. */
  function GetArtistBiography(uuid: Param, slug: Param, lang: Param, html: bool, urlScheme: Param): (e: Endpoint)
    ensures e.path == "artist/biography/" && e.mode == Single
    ensures e.params.Keys == {"slug", "uuid", "lang", "format", "url_scheme"}
    ensures e.params["uuid"] == uuid && e.params["slug"] == slug
    ensures e.params["lang"] == lang && e.params["url_scheme"] == urlScheme
    ensures html <==> e.params["format"] == Str("html")
    ensures !html <==> e.params["format"] == Null
  {
    Endpoint("artist/biography/",
      map["slug" := slug, "uuid" := uuid, "lang" := lang, "format" := HtmlFormat(html), "url_scheme" := urlScheme],
      Single)
  }

  /** `get_artist_bands`: the paginating loop over `artist/bands/`. */
  function GetArtistBands(uuid: Param, slug: Param, start: int, limit: int): (e: Endpoint)
    ensures e.path == "artist/bands/" && e.mode == Paged(start, limit)
    ensures e.params.Keys == {"uuid", "slug"}
    ensures e.params["uuid"] == uuid && e.params["slug"] == slug
  {
    Endpoint("artist/bands/", map["uuid" := uuid, "slug" := slug], Paged(start, limit))
  }

  /** `get_artist_releases`: paginating; `credited` is always sent, as the
      literal `'true'` or `'false'`. */
  function GetArtistReleases(uuid: Param, slug: Param, start: int, limit: int,
                             releaseType: Param, releaseFormat: Param, credited: bool): (e: Endpoint)
    ensures e.path == "artist/releases/" && e.mode == Paged(start, limit)
    ensures e.params.Keys == {"uuid", "slug", "type", "format", "credited"}
    ensures e.params["uuid"] == uuid && e.params["slug"] == slug
    ensures e.params["type"] == releaseType && e.params["format"] == releaseFormat
    ensures e.params["credited"] == Flag(credited) && FlagOf(e.params["credited"]) == credited
  {
    Endpoint("artist/releases/",
      map["uuid" := uuid, "slug" := slug, "type" := releaseType, "format" := releaseFormat, "credited" := Flag(credited)],
      Paged(start, limit))
  }

  /** `get_artist_similar`: paginating; `filters` comma-joined or `None`. */
  function GetArtistSimilar(uuid: Param, slug: Param, filters: seq<string>, start: int, limit: int): (e: Endpoint)
    ensures e.path == "artist/similars/" && e.mode == Paged(start, limit)
    ensures e.params.Keys == {"uuid", "slug", "filters"}
    ensures e.params["uuid"] == uuid && e.params["slug"] == slug
    ensures e.params["filters"] == Null <==> filters == []
    ensures CommaFree(filters) ==> ListOf(e.params["filters"]) == filters
  {
    ListParamRoundTrip(filters);
    Endpoint("artist/similars/", map["uuid" := uuid, "slug" := slug, "filters" := ListParam(filters)], Paged(start, limit))
  }

  /** `search_city`: the one search of the current client that is a plain
      paginating loop; coordinates are passed through untouched. */
  function SearchCity(query: Param, autocomplete: bool, latitude: Param, longitude: Param, start: int, limit: int): (e: Endpoint)
    ensures e.path == "search/city/" && e.mode == Paged(start, limit)
    ensures e.params.Keys == {"query", "autocomplete", "latitude", "longitude"}
    ensures e.params["query"] == query
    ensures e.params["latitude"] == latitude && e.params["longitude"] == longitude
    ensures e.params["autocomplete"] == Flag(autocomplete) && FlagOf(e.params["autocomplete"]) == autocomplete
  {
    Endpoint("search/city/",
      map["query" := query, "autocomplete" := Flag(autocomplete), "latitude" := latitude, "longitude" := longitude],
      Paged(start, limit))
  }

  /** `get_harmonia_search_by_source` of the current client: yields the
      elements of one answer. */
  function GetHarmoniaSearchBySource(sourceName: Param, sourceId: Param, sourceFilters: seq<string>, strict: bool): (e: Endpoint)
    ensures e.path == "harmonia/searchbysource/" && e.mode == Listed
    ensures e.params.Keys == {"source_name", "source_id", "source_filters", "strict"}
    ensures e.params["source_name"] == sourceName && e.params["source_id"] == sourceId
    ensures e.params["source_filters"] == Null <==> sourceFilters == []
    ensures CommaFree(sourceFilters) ==> ListOf(e.params["source_filters"]) == sourceFilters
    ensures e.params["strict"] == Flag(strict) && FlagOf(e.params["strict"]) == strict
  {
    ListParamRoundTrip(sourceFilters);
    Endpoint("harmonia/searchbysource/",
      map["source_name" := sourceName, "source_id" := sourceId,
          "source_filters" := ListParam(sourceFilters), "strict" := Flag(strict)],
      Listed)
  }

  /** `get_shop_artist`: the product type is a path segment, not a
      parameter. */
  function GetShopArtist(productType: string, uuid: Param, slug: Param): (e: Endpoint)
    ensures e.path == "buy/artist/" + productType + "/" && e.mode == Listed
    ensures e.path[..|"buy/artist/"|] == "buy/artist/" && e.path[|"buy/artist/"|..|e.path| - 1] == productType
    ensures e.params.Keys == {"uuid", "slug"}
    ensures e.params["uuid"] == uuid && e.params["slug"] == slug
  {
    Endpoint("buy/artist/" + productType + "/", map["uuid" := uuid, "slug" := slug], Listed)
  }

  /** `test_get_artist_by_slug`: `get_artist(slug='toto')` sends the key, the
      slug, and `None` for every other parameter. */
  lemma GetArtistBySlugKeepsNulls(c: Client, net: Transport)
    ensures var e := GetArtist(Null, Str("toto"), [], Null);
      Call(c, net, e, 1).sent ==
        [HttpRequest(BaseUrl + "artist/",
           map["key" := Str(c.apiKey), "slug" := Str("toto"), "uuid" := Null, "extras" := Null, "extras_limit" := Null])]
  {
    var e := GetArtist(Null, Str("toto"), [], Null);
    var q := Outgoing(c, e.path, e.params).params;
    assert q == map["key" := Str(c.apiKey), "slug" := Str("toto"), "uuid" := Null, "extras" := Null, "extras_limit" := Null];
  }
}

=== FILE: errors.dfy ===
/** The exception taxonomy of the client (blitzr/exceptions.py) and the
    failures a model operation can end with. */
module Errors {
  import opened Json

  /** The four exception classes the library raises. */
  datatype BlitzrError =
    | ConfigurationError(message: string)
    | NetworkError(message: string)
    | ClientError(body: Json)
    | ServerError(message: string)

  /** How a pull on a sequence can fail: with one of the library's own
      exceptions, or because the service answered with a shape the client
      cannot page through (where Python would raise a built-in error such
      as `TypeError` or `AttributeError`). */
  datatype Fault =
    | Raise(error: BlitzrError)
    | Malformed(reason: string)
}

=== FILE: executor.dfy ===
/** The client object and its request executor: `BlitzrClient.__init__` and
    `BlitzrClient._request`. The network is a parameter: a pure function from
    the request handed to the transport to what came back. */
module Executor {
  import opened Wrappers
  import opened Json
  import opened Errors
  import opened Query
  import Decimal

  const BaseUrl: string := "https://api.blitzr.com/"
  const MissingKeyMessage: string := "api_key is missing."
  const ServerPrefix: string := "An error occured on the Blitzr side. HTTP code: "

  /** A constructed client; it only ever holds an accepted key. */
  datatype Client = Client(apiKey: string)

  /** An HTTP status code as a server can send it. */
  type StatusCode = s: int | 100 <= s <= 599 witness 200

  /** What the client hands to the transport: the full URL and the query
      dictionary. */
  datatype HttpRequest = HttpRequest(url: string, params: Params)

  /** What the transport reports back: a response with its status and decoded
      body, or a connection failure with the transport's message. */
  datatype HttpOutcome =
    | Response(status: StatusCode, body: Json)
    | ConnectionFailed(message: string)

  /** The remote service, seen from the client. */
  type Transport = HttpRequest -> HttpOutcome

  /** `BlitzrClient(api_key)`. The key is Python `None` or a string; both
      `None` and the empty string are falsy and rejected before any request
      could be made, any other string is kept as given. */
  function NewClient(apiKey: Option<string>): (r: Result<Client, BlitzrError>)
    ensures r.Ok? <==> apiKey.Some? && apiKey.value != ""
    ensures r.Ok? ==> r.value.apiKey == apiKey.value
    ensures r.Err? ==> r.error == ConfigurationError(MissingKeyMessage)
  {
    match apiKey
    case Some(k) => if k != "" then Ok(Client(k)) else Err(ConfigurationError(MissingKeyMessage))
    case None => Err(ConfigurationError(MissingKeyMessage))
  }

  /** The request `_request(method, params)` hands to the transport: the
      caller's parameters, `None` values included, plus `key`. */
  function Outgoing(c: Client, path: string, params: Params): (req: HttpRequest)
    ensures req.url == BaseUrl + path
    ensures req.params.Keys == params.Keys + {"key"}
    ensures req.params["key"] == Str(c.apiKey)
    ensures forall k :: k in params && k != "key" ==> req.params[k] == params[k]
  {
    HttpRequest(BaseUrl + path, params["key" := Str(c.apiKey)])
  }

  /** The message of the `ServerException` raised for a 5xx status. */
  function ServerMessage(status: nat): string {
    ServerPrefix + Decimal.Show(status)
  }

  /** The status code a server-error message names, if it has the shape
      `ServerMessage` produces. */
  function StatusInMessage(message: string): Option<nat> {
    if |ServerPrefix| < |message|
       && message[..|ServerPrefix|] == ServerPrefix
       && Decimal.AllDigits(message[|ServerPrefix|..])
    then Some(Decimal.Parse(message[|ServerPrefix|..]))
    else None
  }

  /** A server-error message names exactly the status that caused it. */
  lemma ServerMessageNamesStatus(status: nat)
    ensures StatusInMessage(ServerMessage(status)) == Some(status)
  {
    var m := ServerMessage(status);
    assert m[..|ServerPrefix|] == ServerPrefix;
    assert m[|ServerPrefix|..] == Decimal.Show(status);
    Decimal.ParseShow(status);
  }

  /** `_request(method, params)`: one GET of `BaseUrl + method`, its outcome
      sorted into the decoded body (any status below 400), a
      `ClientException` carrying the decoded error body (400-499), a
      `ServerException` whose message names the status (500 and up), or a
      `NetworkException` with the transport's message. */
  function Request(c: Client, net: Transport, path: string, params: Params): (r: Result<Json, BlitzrError>)
    ensures var o := net(Outgoing(c, path, params));
      && (r.Ok? <==> o.Response? && o.status < 400)
      && (r.Ok? ==> r.value == o.body)
      && (r.Err? && r.error.NetworkError? <==> o.ConnectionFailed?)
      && (o.ConnectionFailed? ==> r.error.message == o.message)
      && (r.Err? && r.error.ClientError? <==> o.Response? && 400 <= o.status < 500)
      && (r.Err? && r.error.ClientError? ==> r.error.body == o.body)
      && (r.Err? && r.error.ServerError? <==> o.Response? && o.status >= 500)
      && (r.Err? && r.error.ServerError? ==> StatusInMessage(r.error.message) == Some(o.status as nat))
      && !(r.Err? && r.error.ConfigurationError?)
  {
    match net(Outgoing(c, path, params))
    case ConnectionFailed(message) => Err(NetworkError(message))
    case Response(status, body) =>
      if status >= 500 then
        ServerMessageNamesStatus(status);
        Err(ServerError(ServerMessage(status)))
      else if status >= 400 then Err(ClientError(body))
      else Ok(body)
  }

  /** The outcome of a request can be told apart from its result: two
      answers to the same request that produce the same result are the same
      kind of answer, and a client or server error pins down the error body
      or the status code respectively. */
  lemma {:induction false} ResultDeterminesOutcome(c: Client, net1: Transport, net2: Transport, path: string, params: Params)
    requires Request(c, net1, path, params) == Request(c, net2, path, params)
    ensures var o1 := net1(Outgoing(c, path, params));
      var o2 := net2(Outgoing(c, path, params));
      && (o1.ConnectionFailed? <==> o2.ConnectionFailed?)
      && (o1.ConnectionFailed? ==> o1.message == o2.message)
      && (o1.Response? && o2.Response? && (o1.status >= 400 || o2.status >= 400) ==>
            (o1.status >= 500 <==> o2.status >= 500)
            && (o1.status >= 500 ==> o1.status == o2.status)
            && (o1.status < 500 ==> o1.body == o2.body))
  {
    var r := Request(c, net1, path, params);
    var o1 := net1(Outgoing(c, path, params));
    var o2 := net2(Outgoing(c, path, params));
    if o1.Response? && o2.Response? && o1.status >= 500 && o2.status >= 500 {
      assert StatusInMessage(r.error.message) == Some(o1.status as nat);
      assert StatusInMessage(r.error.message) == Some(o2.status as nat);
    }
  }

  /** `test_request_simple`: an empty dictionary goes out as just the key. */
  lemma RequestSendsKeyOnly(c: Client, path: string)
    ensures Outgoing(c, path, map[]) == HttpRequest(BaseUrl + path, map["key" := Str(c.apiKey)])
  {
  }
}

=== FILE: generator_laws.dfy ===
/** Properties of `SearchGenerator`: how often it asks the server, what
    iterating it yields against a well-behaved endpoint, and how counting
    first interacts with iterating. */
module GeneratorLaws {
  import opened Wrappers
  import opened Json
  import opened Errors
  import opened Executor
  import opened SearchGenerator
  import Pagination

  /** A call of `next` that needs no request only moves the cursor. */
  lemma QuietStep(g: Gen, ask: Answers)
    requires g.results != JNull && g.cursor + 1 != g.cfg.limit
    ensures Next(g, ask) == Emit(g.(cursor := g.cursor + 1), [])
  {
  }

  /** Probing `n` times without reaching `limit` raises StopIteration each
      time and only moves the cursor. */
  lemma {:induction false} QuietProbes(g: Gen, ask: Answers, n: nat)
    requires g.results.JArr? && |g.results.items| <= g.cursor && g.cursor + n < g.cfg.limit
    ensures Probes(g, ask, n) == Probed(seq(n, _ => Stop), g.(cursor := g.cursor + n), [])
    ensures Probes(g, ask, n + 1).asked == Next(g.(cursor := g.cursor + n), ask).asked
    decreases n
  {
    if n == 0 {
      assert g.(cursor := g.cursor + n) == g;
      assert Probes(g, ask, 1).asked == Next(g, ask).asked + [];
    } else {
      var h := g.(cursor := g.cursor + 1);
      QuietStep(g, ask);
      assert Next(g, ask) == Pulled(h, Stop, []);
      QuietProbes(h, ask, n - 1);
      assert h.(cursor := h.cursor + (n - 1)) == g.(cursor := g.cursor + n);
      assert [Stop] + seq(n - 1, _ => Stop) == seq(n, _ => Stop);
      assert Probes(g, ask, n + 1).asked == [] + Probes(h, ask, n).asked;
    }
  }

  /** A generator that has raised StopIteration is not finished: the cursor
      keeps climbing on each further probe, every probe short of `limit`
      raises StopIteration again without a request, and the probe that takes
      the cursor to `limit` asks the server for the next offset. */
  lemma StoppedGeneratorRefetches(g: Gen, ask: Answers)
    requires g.results.JArr? && |g.results.items| <= g.cursor < g.cfg.limit
    ensures var quiet := g.cfg.limit - 1 - g.cursor;
      && Probes(g, ask, quiet) == Probed(seq(quiet, _ => Stop), g.(cursor := g.cfg.limit - 1), [])
      && Probes(g, ask, quiet + 1).asked == [g.start]
  {
    var quiet := g.cfg.limit - 1 - g.cursor;
    QuietProbes(g, ask, quiet);
    var h := g.(cursor := g.cursor + quiet);
    assert h == g.(cursor := g.cfg.limit - 1);
    RefetchAtLimit(h, ask);
  }

  /** The call of `next` that takes the cursor to `limit` asks at `start`. */
  lemma RefetchAtLimit(h: Gen, ask: Answers)
    requires h.cursor + 1 == h.cfg.limit
    ensures Next(h, ask).asked == [h.start]
  {
  }

  /** What a well-behaved search endpoint answers for one page of `data`:
      the page itself, or, with `extras`, an object carrying the page under
      `results` and the size of `data` under `total`. */
  function Answer(extras: bool, page: seq<Json>, total: nat): (a: Json)
    ensures !extras ==> a == JArr(page)
    ensures extras ==> a.JObj? && Get(a.fields, "results") == JArr(page) && Get(a.fields, "total") == JNum(total)
  {
    if extras then JObj(map["results" := JArr(page), "total" := JNum(total)]) else JArr(page)
  }

  /** Every non-negative offset of the generator's query is answered with
      the window of `data` it names. */
  ghost predicate Serves(cfg: Config, ask: Answers, data: seq<Json>) {
    forall s: int {:trigger Pagination.Window(data, s, cfg.limit)} :: 0 <= s ==>
      ask(s) == Ok(Answer(cfg.extras, Pagination.Window(data, s, cfg.limit), |data|))
  }

  /** A fetch from a well-behaved endpoint holds the window at `start`. */
  lemma FetchFromServer(g: Gen, ask: Answers, data: seq<Json>)
    requires Serves(g.cfg, ask, data) && 0 <= g.start
    ensures Fetch(g, ask) == Fetched(
      g.(start := g.start + g.cfg.limit,
         results := JArr(Pagination.Window(data, g.start, g.cfg.limit)),
         length := if g.cfg.extras then JNum(|data|) else g.length),
      None)
  {
    assert ask(g.start) == Ok(Answer(g.cfg.extras, Pagination.Window(data, g.start, g.cfg.limit), |data|));
  }

  /** The window at a non-negative offset holds at most `limit` elements,
      and is short only where `data` runs out. */
  lemma WindowFacts(data: seq<Json>, s: int, limit: int)
    requires 0 <= s && 1 <= limit
    ensures var w := Pagination.Window(data, s, limit);
      && |w| <= limit
      && (s <= |data| && |w| < limit ==> s + |w| == |data|)
      && (w == [] ==> |data| <= s)
  {
  }

  /** The window at a non-negative offset holds consecutive elements of
      `data` from that offset. */
  lemma WindowAt(data: seq<Json>, s: int, limit: int, i: int)
    requires 0 <= s && 1 <= limit
    requires 0 <= i < |Pagination.Window(data, s, limit)|
    ensures s + i < |data| && Pagination.Window(data, s, limit)[i] == data[s + i]
  {
  }

  lemma ConsSlice(data: seq<Json>, i: int)
    requires 0 <= i < |data|
    ensures data[i..] == [data[i]] + data[i + 1..]
  {
  }

  /** The state after a well-behaved endpoint refilled the page at `start`. */
  function Refilled(g: Gen, data: seq<Json>): Gen {
    Gen(g.cfg, g.start + g.cfg.limit, 0,
        JArr(Pagination.Window(data, g.start, g.cfg.limit)),
        if g.cfg.extras then JNum(|data|) else g.length)
  }

  /** Reaching `limit` on a page of a well-behaved endpoint fetches the
      next window and emits from its beginning. */
  lemma RefillStep(g: Gen, ask: Answers, data: seq<Json>)
    requires Serves(g.cfg, ask, data) && 0 <= g.start
    requires g.cursor + 1 == g.cfg.limit
    ensures Next(g, ask) == Emit(Refilled(g, data), [g.start])
  {
    FetchFromServer(g.(cursor := g.cursor + 1), ask, data);
  }

  /** A pull that yields puts its item in front of what the remaining pulls
      drain. */
  lemma DrainAfterYield(g: Gen, ask: Answers, pulls: nat, k: Gen, data: seq<Json>, i: int, asked: seq<int>)
    requires pulls > 0 && 0 <= i < |data| && Next(g, ask) == Pulled(k, Yield(data[i]), asked)
    requires Drain(k, ask, pulls - 1).items == data[i + 1..] && Drain(k, ask, pulls - 1).end == Some(Stop)
    ensures Drain(g, ask, pulls).items == data[i..] && Drain(g, ask, pulls).end == Some(Stop)
  {
    ConsSlice(data, i);
  }

  /** Reaching `limit` when the next window is not empty yields its first
      element. */
  lemma RefillYields(g: Gen, ask: Answers, data: seq<Json>)
    requires Serves(g.cfg, ask, data) && 0 <= g.start && 1 <= g.cfg.limit
    requires g.cursor + 1 == g.cfg.limit
    requires Pagination.Window(data, g.start, g.cfg.limit) != []
    ensures g.start < |data|
    ensures Next(g, ask) == Pulled(Refilled(g, data), Yield(data[g.start]), [g.start])
  {
    WindowAt(data, g.start, g.cfg.limit, 0);
    RefillStep(g, ask, data);
  }

  /** Once a page of a well-behaved endpoint is held, iterating to the end
      yields exactly the rest of `data` after the cursor and then raises
      StopIteration, provided the consumer pulls often enough. */
  lemma {:induction false} DrainFrom(g: Gen, ask: Answers, data: seq<Json>, p: int, from: int, pulls: nat)
    requires 1 <= g.cfg.limit && Serves(g.cfg, ask, data)
    requires 0 <= p <= |data|
    requires g.start == p + g.cfg.limit
    requires g.results == JArr(Pagination.Window(data, p, g.cfg.limit))
    requires g.cursor < |Pagination.Window(data, p, g.cfg.limit)|
    requires from == p + g.cursor + 1
    requires pulls > |data| - from
    ensures 0 <= from <= |data|
    ensures Drain(g, ask, pulls).items == data[from..]
    ensures Drain(g, ask, pulls).end == Some(Stop)
    decreases |data| - from, 2
  {
    var limit := g.cfg.limit;
    var xs := Pagination.Window(data, p, limit);
    WindowFacts(data, p, limit);
    if g.cursor + 1 < |xs| {
      DrainWithinPage(g, ask, data, p, pulls);
    } else if g.cursor + 1 < limit {
      QuietStep(g, ask);
      assert Next(g, ask).step == Stop;
      assert Drain(g, ask, pulls).end == Some(Stop) && Drain(g, ask, pulls).items == [];
    } else if Pagination.Window(data, p + limit, limit) == [] {
      EndOnBoundary(g, ask, data, p, pulls);
    } else {
      DrainAcrossPages(g, ask, data, p, pulls);
    }
  }

  /** The step of `DrainFrom` that stays on the held page. */
  lemma {:induction false} DrainWithinPage(g: Gen, ask: Answers, data: seq<Json>, p: int, pulls: nat)
    requires 1 <= g.cfg.limit && Serves(g.cfg, ask, data)
    requires 0 <= p <= |data|
    requires g.start == p + g.cfg.limit
    requires g.results == JArr(Pagination.Window(data, p, g.cfg.limit))
    requires g.cursor < |Pagination.Window(data, p, g.cfg.limit)|
    requires pulls > |data| - (p + g.cursor + 1)
    requires g.cursor + 1 < |Pagination.Window(data, p, g.cfg.limit)|
    ensures Drain(g, ask, pulls).items == data[p + g.cursor + 1..]
    ensures Drain(g, ask, pulls).end == Some(Stop)
    decreases |data| - (p + g.cursor + 1), 1
  {
    var i := p + g.cursor + 1;
    WindowAt(data, p, g.cfg.limit, g.cursor + 1);
    QuietStep(g, ask);
    assert Next(g, ask) == Pulled(Advanced(g), Yield(data[i]), []);
    DrainAdvanced(g, ask, data, p, pulls);
    DrainAfterYield(g, ask, pulls, Advanced(g), data, i, []);
  }

  /** The state after a call of `next` that needed no request. */
  function Advanced(g: Gen): Gen {
    g.(cursor := g.cursor + 1)
  }

  /** What the pulls left after a step within the page drain. */
  lemma {:induction false} DrainAdvanced(g: Gen, ask: Answers, data: seq<Json>, p: int, pulls: nat)
    requires 1 <= g.cfg.limit && Serves(g.cfg, ask, data)
    requires 0 <= p <= |data|
    requires g.start == p + g.cfg.limit
    requires g.results == JArr(Pagination.Window(data, p, g.cfg.limit))
    requires g.cursor < |Pagination.Window(data, p, g.cfg.limit)|
    requires pulls > |data| - (p + g.cursor + 1)
    requires g.cursor + 1 < |Pagination.Window(data, p, g.cfg.limit)|
    ensures Drain(Advanced(g), ask, pulls - 1).items == data[p + g.cursor + 2..]
    ensures Drain(Advanced(g), ask, pulls - 1).end == Some(Stop)
    decreases |data| - (p + g.cursor + 1), 0
  {
    DrainFrom(Advanced(g), ask, data, p, p + g.cursor + 2, pulls - 1);
  }

  /** The step of `DrainFrom` that uses up a full page and finds the next
      one empty: `data` ended exactly on a page boundary, which costs one
      more request. */
  lemma EndOnBoundary(g: Gen, ask: Answers, data: seq<Json>, p: int, pulls: nat)
    requires 1 <= g.cfg.limit && Serves(g.cfg, ask, data)
    requires 0 <= p <= |data|
    requires g.start == p + g.cfg.limit
    requires g.results == JArr(Pagination.Window(data, p, g.cfg.limit))
    requires g.cursor < |Pagination.Window(data, p, g.cfg.limit)|
    requires pulls > |data| - (p + g.cursor + 1)
    requires g.cursor + 1 == g.cfg.limit
    requires Pagination.Window(data, p + g.cfg.limit, g.cfg.limit) == []
    ensures Drain(g, ask, pulls).items == data[p + g.cursor + 1..]
    ensures Drain(g, ask, pulls).end == Some(Stop)
  {
    var limit := g.cfg.limit;
    WindowAt(data, p, limit, g.cursor);
    WindowFacts(data, p + limit, limit);
    RefillStep(g, ask, data);
    assert p + limit == |data|;
    assert Next(g, ask).step == Stop;
    assert Drain(g, ask, pulls).end == Some(Stop) && Drain(g, ask, pulls).items == [];
  }

  /** The step of `DrainFrom` that uses up a full page and fetches a
      non-empty next one. */
  lemma {:induction false} DrainAcrossPages(g: Gen, ask: Answers, data: seq<Json>, p: int, pulls: nat)
    requires 1 <= g.cfg.limit && Serves(g.cfg, ask, data)
    requires 0 <= p <= |data|
    requires g.start == p + g.cfg.limit
    requires g.results == JArr(Pagination.Window(data, p, g.cfg.limit))
    requires g.cursor < |Pagination.Window(data, p, g.cfg.limit)|
    requires pulls > |data| - (p + g.cursor + 1)
    requires g.cursor + 1 == g.cfg.limit
    requires Pagination.Window(data, p + g.cfg.limit, g.cfg.limit) != []
    ensures Drain(g, ask, pulls).items == data[p + g.cursor + 1..]
    ensures Drain(g, ask, pulls).end == Some(Stop)
    decreases |data| - (p + g.cursor + 1), 1
  {
    RefillYields(g, ask, data);
    DrainRefilled(g, ask, data, p, pulls);
    DrainAfterYield(g, ask, pulls, Refilled(g, data), data, g.start, [g.start]);
  }

  /** What the pulls left after a refill drain. */
  lemma {:induction false} DrainRefilled(g: Gen, ask: Answers, data: seq<Json>, p: int, pulls: nat)
    requires 1 <= g.cfg.limit && Serves(g.cfg, ask, data)
    requires 0 <= p <= |data|
    requires g.start == p + g.cfg.limit
    requires g.results == JArr(Pagination.Window(data, p, g.cfg.limit))
    requires g.cursor < |Pagination.Window(data, p, g.cfg.limit)|
    requires pulls > |data| - (p + g.cursor + 1)
    requires g.cursor + 1 == g.cfg.limit
    requires Pagination.Window(data, p + g.cfg.limit, g.cfg.limit) != []
    ensures g.start < |data|
    ensures Drain(Refilled(g, data), ask, pulls - 1).items == data[g.start + 1..]
    ensures Drain(Refilled(g, data), ask, pulls - 1).end == Some(Stop)
    decreases |data| - (p + g.cursor + 1), 0
  {
    var limit := g.cfg.limit;
    var w := Pagination.Window(data, g.start, limit);
    assert w != [];
    WindowAt(data, g.start, limit, 0);
    var r := Refilled(g, data);
    assert r.cfg == g.cfg && r.start == g.start + limit && r.cursor == 0 && r.results == JArr(w);
    assert pulls - 1 > |data| - (g.start + r.cursor + 1);
    DrainFrom(r, ask, data, g.start, g.start + 1, pulls - 1);
  }

  /** Iterating a fresh generator over a well-behaved endpoint yields every
      element of `data` from the starting offset on, then raises
      StopIteration. */
  lemma IteratesEverything(cfg: Config, ask: Answers, data: seq<Json>, s: int, pulls: nat)
    requires 1 <= cfg.limit && Serves(cfg, ask, data)
    requires 0 <= s <= |data|
    requires pulls > |data| - s
    ensures var d := Drain(Create(cfg, s), ask, pulls);
      d.items == data[s..] && d.end == Some(Stop)
  {
    var g := Create(cfg, s);
    var h := g.(cursor := 0);
    FetchFromServer(h, ask, data);
    var n := Next(g, ask);
    var xs := Pagination.Window(data, s, cfg.limit);
    if xs == [] {
      assert n.step == Stop;
    } else {
      assert n.step == Yield(data[s]);
      DrainFrom(n.gen, ask, data, s, s + 1, pulls - 1);
      assert Drain(g, ask, pulls).items == [data[s]] + data[s + 1..];
    }
  }

  /** Asking for the length before iterating costs one request, which the
      iteration then reuses: the total is the size of `data`, a second
      `len` is answered from memory, and iterating afterwards still yields
      every element from the starting offset on. */
  lemma CountThenIterate(cfg: Config, ask: Answers, data: seq<Json>, s: int, pulls: nat)
    requires cfg.extras && 1 <= cfg.limit && Serves(cfg, ask, data)
    requires 0 <= s <= |data|
    requires pulls > |data| - s
    ensures var r := Len(Create(cfg, s), ask);
      && r.total == Ok(JNum(|data|))
      && |r.asked| == 1
      && Len(r.gen, ask) == Counted(r.gen, r.total, [])
      && Drain(r.gen, ask, pulls).items == data[s..]
      && Drain(r.gen, ask, pulls).end == Some(Stop)
  {
    var g := Create(cfg, s);
    FetchFromServer(g, ask, data);
    var r := Len(g, ask);
    assert r.gen == g.(start := s + cfg.limit, results := JArr(Pagination.Window(data, s, cfg.limit)), length := JNum(|data|));
    DrainFrom(r.gen, ask, data, s, s, pulls);
  }

  /** Counting a fresh generator leaves its cursor at -1, so the first
      `next` afterwards returns the first element of the page `len` fetched,
      without asking again. */
  lemma LenThenNextReusesPage(cfg: Config, ask: Answers, s: int)
    requires cfg.extras && cfg.limit != 0
    requires var r := Len(Create(cfg, s), ask);
      r.total.Ok? && r.gen.results.JArr? && r.gen.results.items != []
    ensures var r := Len(Create(cfg, s), ask);
      && r.gen.cursor == -1
      && Next(r.gen, ask) == Pulled(r.gen.(cursor := 0), Yield(r.gen.results.items[0]), [])
  {
    var r := Len(Create(cfg, s), ask);
    QuietStep(r.gen, ask);
  }

  /** A page longer than `limit` is cut short: the cursor reaching `limit`
      forces the next request, so only the first `limit` elements of each
      answer are ever yielded. */
  lemma OversizedPageIsTruncated(cfg: Config, net: Transport)
    requires cfg.limit == 1 && !cfg.extras
    requires forall q :: net(q) == Response(200, JArr([JStr("a"), JStr("b")]))
    ensures var d := Drain(Create(cfg, 0), AnswersOf(cfg, net), 2);
      d.items == [JStr("a"), JStr("a")] && d.asked == [0, 1]
  {
    var ask := AnswersOf(cfg, net);
    var page := JArr([JStr("a"), JStr("b")]);
    assert ask(0) == Ok(page);
    assert ask(1) == Ok(page);
    var g1 := Gen(cfg, 1, 0, page, JNull);
    FirstPullOfOne(cfg, ask, page);
    SecondPullOfOne(g1, ask, page);
    TwoYields(Create(cfg, 0), ask, g1, Gen(cfg, 2, 0, page, JNull), JStr("a"), JStr("a"), 0, 1);
  }

  /** Two pulls that both yield drain to those two items. */
  lemma TwoYields(g: Gen, ask: Answers, g1: Gen, g2: Gen, x: Json, y: Json, s0: int, s1: int)
    requires Next(g, ask) == Pulled(g1, Yield(x), [s0])
    requires Next(g1, ask) == Pulled(g2, Yield(y), [s1])
    ensures Drain(g, ask, 2).items == [x, y] && Drain(g, ask, 2).asked == [s0, s1]
  {
    assert Drain(g2, ask, 0) == Drained([], g2, None, []);
    assert Drain(g1, ask, 1) == Drained([y], g2, None, [s1]);
  }

  /** The first pull of a fresh generator with `limit` 1 fetches at 0 and
      yields the first element of the answer. */
  lemma FirstPullOfOne(cfg: Config, ask: Answers, page: Json)
    requires cfg.limit == 1 && !cfg.extras
    requires page == JArr([JStr("a"), JStr("b")]) && ask(0) == Ok(page)
    ensures Next(Create(cfg, 0), ask) == Pulled(Gen(cfg, 1, 0, page, JNull), Yield(JStr("a")), [0])
  {
    var probe := Create(cfg, 0).(cursor := 0);
    assert Fetch(probe, ask) == Fetched(Gen(cfg, 1, 0, page, JNull), None);
  }

  /** With `limit` 1 every pull refetches, so the second pull asks at 1 and
      yields the first element of that answer too. */
  lemma SecondPullOfOne(g: Gen, ask: Answers, page: Json)
    requires g.cfg.limit == 1 && !g.cfg.extras && g.start == 1 && g.cursor == 0
    requires page == JArr([JStr("a"), JStr("b")]) && ask(1) == Ok(page)
    ensures Next(g, ask) == Pulled(Gen(g.cfg, 2, 0, page, g.length), Yield(JStr("a")), [1])
  {
    var probe := g.(cursor := 1);
    assert Fetch(probe, ask) == Fetched(Gen(g.cfg, 2, 1, page, g.length), None);
  }

  /** `for x in gen` and calling `next` with every exception caught see the
      same steps up to the first one that is not an item: iteration yields
      exactly the items the probes yield, and it ends on the very step
      `next` produced there, so a StopIteration ends it cleanly and any
      failure is re-raised as is. */
  lemma {:induction false} DrainIsProbesUntilEnd(g: Gen, ask: Answers, n: nat)
    ensures var d := Drain(g, ask, n);
      var r := Probes(g, ask, n);
      && (forall i :: 0 <= i < |d.items| ==> r.steps[i] == Yield(d.items[i]))
      && (d.end.None? ==> |d.items| == n)
      && (d.end.Some? ==> |d.items| < n && r.steps[|d.items|] == d.end.value)
    decreases n
  {
    if n > 0 {
      var p := Next(g, ask);
      if p.step.Yield? {
        DrainIsProbesUntilEnd(p.gen, ask, n - 1);
        var d := Drain(g, ask, n);
        var rest := Drain(p.gen, ask, n - 1);
        var r := Probes(g, ask, n);
        assert d.items == [p.step.item] + rest.items;
        assert r.steps == [p.step] + Probes(p.gen, ask, n - 1).steps;
      }
    }
  }

  /** Without `extras` nothing ever writes the memoised total: one `next`
      keeps it whatever the server answers. */
  lemma NextKeepsLength(g: Gen, ask: Answers)
    requires !g.cfg.extras
    ensures Next(g, ask).gen.length == g.length
  {
    if g.results == JNull || g.cursor + 1 == g.cfg.limit {
      NextAfterFetch(g, ask);
    }
  }

  /** Any number of `next` calls, exceptions caught, keep the configuration
      and, without `extras`, the memoised total. */
  lemma {:induction false} ProbesKeepLength(g: Gen, ask: Answers, n: nat)
    requires !g.cfg.extras
    ensures Probes(g, ask, n).gen.cfg == g.cfg
    ensures Probes(g, ask, n).gen.length == g.length
    decreases n
  {
    if n > 0 {
      NextKeepsLength(g, ask);
      ProbesKeepLength(Next(g, ask).gen, ask, n - 1);
    }
  }

  /** A generator created with `extras` off never learns its total, so `len`
      raises the ConfigurationException however far it has been iterated,
      without a request. */
  lemma NoExtrasNeverCounts(cfg: Config, ask: Answers, s: int, n: nat)
    requires !cfg.extras
    ensures var h := Probes(Create(cfg, s), ask, n).gen;
      Len(h, ask) == Counted(h, Err(Raise(ConfigurationError(NoExtrasMessage))), [])
  {
    ProbesKeepLength(Create(cfg, s), ask, n);
  }
}

=== FILE: json.dfy ===
/** Decoded JSON values, as `req.json()` hands them to the client. */
module Json {

  /** A decoded JSON document. Numbers are integers only: the client never
      does arithmetic on a floating-point field. `JNull` is also what Python's
      `dict.get` yields for a missing key, so it doubles as Python's `None`. */
  datatype Json =
    | JNull
    | JBool(b: bool)
    | JNum(n: int)
    | JStr(s: string)
    | JArr(items: seq<Json>)
    | JObj(fields: map<string, Json>)

  /** Python's `dict.get(key)`: the value stored under `key`, or `None`. */
  function Get(fields: map<string, Json>, key: string): (v: Json)
    ensures key in fields ==> v == fields[key]
    ensures key !in fields ==> v == JNull
  {
    if key in fields then fields[key] else JNull
  }

  /** The truth value Python gives a decoded JSON value in `if v:` / `v or ...`. */
  predicate Truthy(v: Json) {
    match v
    case JNull => false
    case JBool(b) => b
    case JNum(n) => n != 0
    case JStr(s) => s != ""
    case JArr(items) => items != []
    case JObj(fields) => fields != map[]
  }

  /** Python's `v == 0` for a decoded JSON value: `False == 0` holds too. */
  predicate EqualsZero(v: Json) {
    v == JNum(0) || v == JBool(false)
  }
}

=== FILE: legacy.dfy ===
/** The legacy `blitzrpythonclient` package. Its constructor, request
    executor, paginating loop and most methods are the same as the current
    client's and are modelled once, in `Executor`, `Pagination` and
    `Endpoints`; this module holds the methods whose shape differs and
    relates them to their current counterparts. */
module Legacy {
  import opened Wrappers
  import opened Json
  import opened Query
  import opened Executor
  import opened Pagination
  import opened Endpoints
  import SearchGenerator
  import GeneratorLaws

  /** `search_artist`, `search_label` and `search_release`: plain paginating
      loops rather than `SearchGenerator`s. */
  function Search(entity: SearchGenerator.Entity, query: Param, filters: seq<string>, autocomplete: bool,
                  start: int, limit: int, extras: bool): (e: Endpoint)
    ensures e.path == SearchGenerator.SearchPath(entity) && e.mode == Paged(start, limit)
    ensures e.params.Keys == {"query", "filters", "autocomplete", "extras"}
    ensures e.params["query"] == query
    ensures e.params["filters"] == Null <==> filters == []
    ensures CommaFree(filters) ==> ListOf(e.params["filters"]) == filters
    ensures e.params["autocomplete"] == Flag(autocomplete) && FlagOf(e.params["autocomplete"]) == autocomplete
    ensures e.params["extras"] == Flag(extras) && FlagOf(e.params["extras"]) == extras
  {
    ListParamRoundTrip(filters);
    Endpoint(SearchGenerator.SearchPath(entity),
      map["query" := query, "filters" := ListParam(filters), "autocomplete" := Flag(autocomplete), "extras" := Flag(extras)],
      Paged(start, limit))
  }

  /** The legacy `search_artist`, `search_label` or `search_release` called
      with the query alone: no filters, `autocomplete=True`, `start=0`,
      `limit=10` and `extras=False`. */
  function SearchWithDefaults(entity: SearchGenerator.Entity, query: Param): (e: Endpoint)
    ensures e.path == SearchGenerator.SearchPath(entity) && e.mode == Paged(0, 10)
    ensures e.params.Keys == {"query", "filters", "autocomplete", "extras"}
    ensures e.params["query"] == query && e.params["filters"] == Null
    ensures e.params["autocomplete"] == Str("true") && e.params["extras"] == Str("false")
  {
    Search(entity, query, [], true, 0, 10, false)
  }

  /** Called with the query alone, the two clients ask different questions:
      the legacy loop sends `autocomplete='true'` and `extras='false'`, the
      current generator `autocomplete='false'` and `extras='true'`, so the
      current one gets an object with `results` and `total` back where the
      legacy one expects a bare list. The other keys agree. */
  lemma DefaultsDiffer(c: Client, entity: SearchGenerator.Entity, query: Param, s: int)
    ensures var legacy := WithWindow(SearchWithDefaults(entity, query).params, s, 10);
      var g := SearchGenerator.SearchWithDefaults(c, entity, query);
      var current := SearchGenerator.QueryAt(g.cfg, s);
      && legacy.Keys == current.Keys
      && legacy["autocomplete"] == Str("true") && current["autocomplete"] == Str("false")
      && legacy["extras"] == Str("false") && current["extras"] == Str("true")
      && legacy != current
      && forall k :: k in legacy && k != "autocomplete" && k != "extras" ==> legacy[k] == current[k]
  {
    var legacy := WithWindow(SearchWithDefaults(entity, query).params, s, 10);
    var current := SearchGenerator.QueryAt(SearchGenerator.SearchWithDefaults(c, entity, query).cfg, s);
    assert legacy["extras"] != current["extras"];
  }

  /** `search_track`: a paginating loop that sends no `autocomplete` key
      at all. */
  function SearchTrack(query: Param, filters: seq<string>, start: int, limit: int, extras: bool): (e: Endpoint)
    ensures e.path == "search/track/" && e.mode == Paged(start, limit)
    ensures e.params.Keys == {"query", "filters", "extras"}
    ensures e.params["query"] == query
    ensures e.params["filters"] == Null <==> filters == []
    ensures CommaFree(filters) ==> ListOf(e.params["filters"]) == filters
    ensures e.params["extras"] == Flag(extras) && FlagOf(e.params["extras"]) == extras
  {
    ListParamRoundTrip(filters);
    Endpoint("search/track/", map["query" := query, "filters" := ListParam(filters), "extras" := Flag(extras)],
      Paged(start, limit))
  }

  /** `get_harmonia_search_by_source`: the same request as the current
      client's, but the decoded body is returned as is instead of being
      iterated. */
  function GetHarmoniaSearchBySource(sourceName: Param, sourceId: Param, sourceFilters: seq<string>, strict: bool): (e: Endpoint)
    ensures e.path == "harmonia/searchbysource/" && e.mode == Single
    ensures e.params.Keys == {"source_name", "source_id", "source_filters", "strict"}
    ensures var current := Endpoints.GetHarmoniaSearchBySource(sourceName, sourceId, sourceFilters, strict);
      e.path == current.path && e.params == current.params
  {
    var current := Endpoints.GetHarmoniaSearchBySource(sourceName, sourceId, sourceFilters, strict);
    Endpoint(current.path, current.params, Single)
  }

  /** The legacy search by source is eager: the call itself sends the one
      request and hands back whatever it decodes. The current one is a
      generator: it sends nothing until the consumer pulls, and then sends
      the same request and yields the elements of a list, failing on
      anything else. */
  lemma HarmoniaClientsDiffer(c: Client, net: Transport, sourceName: Param, sourceId: Param,
                              sourceFilters: seq<string>, strict: bool, budget: nat)
    ensures var legacy := GetHarmoniaSearchBySource(sourceName, sourceId, sourceFilters, strict);
      var current := Endpoints.GetHarmoniaSearchBySource(sourceName, sourceId, sourceFilters, strict);
      var r := Request(c, net, current.path, current.params);
      && Call(c, net, legacy, budget).sent == [Outgoing(c, current.path, current.params)]
      && Call(c, net, legacy, budget).reply == Body(r)
      && (budget == 0 ==> Call(c, net, current, budget) == Outcome(Pending, []))
      && (budget > 0 ==> Call(c, net, current, budget) == Outcome(Elements(AsPage(r)), Call(c, net, legacy, budget).sent))
  {
  }

  /** The dictionary the legacy loop sends for offset `s` is the one the
      current generator sends for the same search. */
  lemma SearchQueryMatchesGenerator(c: Client, entity: SearchGenerator.Entity, query: Param, filters: seq<string>,
                                    autocomplete: bool, start: int, limit: int, extras: bool, s: int)
    ensures var e := Search(entity, query, filters, autocomplete, start, limit, extras);
      var g := SearchGenerator.Search(c, entity, query, filters, autocomplete, start, limit, extras);
      WithWindow(e.params, s, limit) == SearchGenerator.QueryAt(g.cfg, s)
  {
    var e := Search(entity, query, filters, autocomplete, start, limit, extras);
    var g := SearchGenerator.Search(c, entity, query, filters, autocomplete, start, limit, extras);
    var q1 := WithWindow(e.params, s, limit);
    var q2 := SearchGenerator.QueryAt(g.cfg, s);
    assert q1.Keys == q2.Keys;
    forall k | k in q1 ensures q1[k] == q2[k] {
    }
  }

  /** The legacy track search leaves `autocomplete` out, where the current
      generator sends `'false'`. */
  lemma TrackQueryDiffersInAutocomplete(c: Client, query: Param, filters: seq<string>, start: int, limit: int,
                                        extras: bool, s: int)
    ensures var e := SearchTrack(query, filters, start, limit, extras);
      var g := SearchGenerator.SearchTrack(c, query, filters, start, limit, extras);
      var legacy := WithWindow(e.params, s, limit);
      var current := SearchGenerator.QueryAt(g.cfg, s);
      && "autocomplete" !in legacy
      && current["autocomplete"] == Str("false")
      && legacy.Keys + {"autocomplete"} == current.Keys
      && forall k :: k in legacy ==> legacy[k] == current[k]
  {
  }

  /** Without `extras`, the legacy loop and the current generator agree on
      a well-behaved endpoint: both yield every element from the starting
      offset on, the loop ending on a short page and the generator with
      StopIteration. */
  lemma SearchAgreesWithGenerator(c: Client, net: Transport, entity: SearchGenerator.Entity, query: Param,
                                  filters: seq<string>, autocomplete: bool, s: int, limit: int,
                                  data: seq<Json>, budget: nat, pulls: nat)
    requires 1 <= limit && 0 <= s <= |data|
    requires var g := SearchGenerator.Search(c, entity, query, filters, autocomplete, s, limit, false);
      GeneratorLaws.Serves(g.cfg, SearchGenerator.AnswersOf(g.cfg, net), data)
    requires s + budget * limit > |data| && pulls > |data| - s
    ensures Call(c, net, Search(entity, query, filters, autocomplete, s, limit, false), budget).reply
      == Walked(data[s..], ShortPage)
    ensures var g := SearchGenerator.Search(c, entity, query, filters, autocomplete, s, limit, false);
      SearchGenerator.Drain(g, SearchGenerator.AnswersOf(g.cfg, net), pulls).items == data[s..]
  {
    var e := Search(entity, query, filters, autocomplete, s, limit, false);
    var g := SearchGenerator.Search(c, entity, query, filters, autocomplete, s, limit, false);
    var ask := SearchGenerator.AnswersOf(g.cfg, net);
    var fetch := PagesOf(c, net, e.path, e.params, limit);
    forall t | 0 <= t
      ensures fetch(t) == Ok(Window(data, t, limit))
    {
      SearchQueryMatchesGenerator(c, entity, query, filters, autocomplete, s, limit, false, t);
      assert ask(t) == Ok(GeneratorLaws.Answer(false, Window(data, t, limit), |data|));
    }
    PaginateWindows(fetch, data, s, limit, budget);
    GeneratorLaws.IteratesEverything(g.cfg, ask, data, s, pulls);
    assert g == SearchGenerator.Create(g.cfg, s);
  }
}

=== FILE: pagination.dfy ===
/** The offset/limit auto-pagination loop every listing method of the client
    repeats:

      while True: page = fetch(start, limit); yield every item of page;
                  start += limit; if len(page) < limit: break

    The page source is a parameter. The Python generator is lazy and a
    consumer may stop pulling at any time; `budget` is the number of page
    requests the consumer lets happen. */
module Pagination {
  import opened Wrappers
  import opened Json
  import opened Errors

  /** The page a request for offset `start` produced, or why it failed. */
  type PageSource = int -> Result<seq<Json>, Fault>

  /** Why a walk ended: a page shorter than `limit` came back, a request
      failed, or the consumer stopped pulling after `budget` pages. */
  datatype Stop = ShortPage | Failed(fault: Fault) | Budget

  /** What a walk produced: every item yielded, in order, and the `start` of
      every request made, in order. */
  datatype Walk = Walk(items: seq<Json>, starts: seq<int>, stop: Stop)

  function PageOr(r: Result<seq<Json>, Fault>): seq<Json> {
    if r.Ok? then r.value else []
  }

  /** The pages fetched at `starts`, concatenated (a failed request adds
      nothing). */
  function Flatten(fetch: PageSource, starts: seq<int>): seq<Json>
    decreases |starts|
  {
    if starts == [] then [] else PageOr(fetch(starts[0])) + Flatten(fetch, starts[1..])
  }

  predicate Full(fetch: PageSource, s: int, limit: int) {
    fetch(s).Ok? && |fetch(s).value| >= limit
  }

  /** How a walk may end: its last request returned a page shorter than
      `limit`, or failed with the walk's fault, or the consumer stopped after
      `budget` requests, the last of which returned a full page. */
  predicate EndedBy(fetch: PageSource, limit: int, budget: nat, w: Walk) {
    match w.stop
    case ShortPage =>
      |w.starts| >= 1 && fetch(Last(w.starts)).Ok? && |fetch(Last(w.starts)).value| < limit
    case Failed(fault) =>
      |w.starts| >= 1 && fetch(Last(w.starts)) == Err(fault)
    case Budget =>
      |w.starts| == budget && (budget > 0 ==> Full(fetch, Last(w.starts), limit))
  }

  function Last(s: seq<int>): int
    requires |s| >= 1
  {
    s[|s| - 1]
  }

  /** The offsets `start`, `start + limit`, ... of `n` successive requests. */
  function Offsets(start: int, limit: int, n: nat): (offs: seq<int>)
    ensures |offs| == n
    decreases n
  {
    if n == 0 then [] else [start] + Offsets(start + limit, limit, n - 1)
  }

  /** The k-th offset is `start + k * limit`. */
  lemma {:induction false} OffsetAt(start: int, limit: int, n: nat, k: nat)
    requires k < n
    ensures Offsets(start, limit, n)[k] == start + k * limit
    decreases k
  {
    if k > 0 {
      OffsetAt(start + limit, limit, n - 1, k - 1);
      assert (k - 1) * limit + limit == k * limit;
    }
  }

  /** The loop. Its requests ask for `start`, `start + limit`, ... in turn;
      every item of every page is yielded, whatever the page's length; the
      loop goes on exactly while pages come back with at least `limit` items
      (so every page but the last is full, and the last is short, failed, or
      the consumer stopped pulling). */
  function Paginate(fetch: PageSource, start: int, limit: int, budget: nat): (w: Walk)
    ensures |w.starts| <= budget
    ensures budget > 0 ==> |w.starts| >= 1
    ensures w.starts == Offsets(start, limit, |w.starts|)
    ensures forall k :: 0 <= k < |w.starts| - 1 ==> Full(fetch, w.starts[k], limit)
    decreases budget
  {
    if budget == 0 then Walk([], [], Budget)
    else
      match fetch(start)
      case Err(fault) => Walk([], [start], Failed(fault))
      case Ok(page) =>
        if |page| < limit then Walk(page, [start], ShortPage)
        else
          var rest := Paginate(fetch, start + limit, limit, budget - 1);
          var starts := [start] + rest.starts;
          assert starts[1..] == rest.starts;
          Walk(page + rest.items, starts, rest.stop)
  }

  /** The loop stops exactly as the loop's `break` says: after a page
      shorter than `limit`, at a failed request, or when the consumer stops
      pulling right after a full page. */
  lemma {:induction false} StopsAsStated(fetch: PageSource, start: int, limit: int, budget: nat)
    ensures EndedBy(fetch, limit, budget, Paginate(fetch, start, limit, budget))
    decreases budget
  {
    var w := Paginate(fetch, start, limit, budget);
    if budget > 0 {
      match fetch(start)
      case Err(f) =>
        assert w == Walk([], [start], Failed(f));
      case Ok(page) =>
        if |page| >= limit {
          var rest := Paginate(fetch, start + limit, limit, budget - 1);
          assert w == Walk(page + rest.items, [start] + rest.starts, rest.stop);
          StopsAsStated(fetch, start + limit, limit, budget - 1);
          if rest.starts != [] {
            assert Last(w.starts) == Last(rest.starts);
          }
        } else {
          assert w == Walk(page, [start], ShortPage);
        }
    }
  }

  /** What the loop yields is every page it fetched, concatenated in
      request order. */
  lemma {:induction false} YieldsEveryPage(fetch: PageSource, start: int, limit: int, budget: nat)
    ensures var w := Paginate(fetch, start, limit, budget);
      w.items == Flatten(fetch, w.starts)
    decreases budget
  {
    var w := Paginate(fetch, start, limit, budget);
    if budget > 0 {
      match fetch(start)
      case Err(f) =>
        assert w == Walk([], [start], Failed(f));
        assert Flatten(fetch, [start]) == PageOr(fetch(start)) + Flatten(fetch, []);
      case Ok(page) =>
        if |page| >= limit {
          var rest := Paginate(fetch, start + limit, limit, budget - 1);
          assert w == Walk(page + rest.items, [start] + rest.starts, rest.stop);
          YieldsEveryPage(fetch, start + limit, limit, budget - 1);
          assert ([start] + rest.starts)[1..] == rest.starts;
          assert Flatten(fetch, w.starts) == page + Flatten(fetch, rest.starts);
        } else {
          assert w == Walk(page, [start], ShortPage);
          assert Flatten(fetch, [start]) == page + Flatten(fetch, []);
        }
    }
  }

  /** Pulling more pages only extends what was produced: the items and
      offsets of a shorter walk are prefixes of those of a longer one. */
  lemma {:induction false} MorePullsExtend(fetch: PageSource, start: int, limit: int, b1: nat, b2: nat)
    requires b1 <= b2
    ensures var w1 := Paginate(fetch, start, limit, b1);
      var w2 := Paginate(fetch, start, limit, b2);
      && |w1.items| <= |w2.items| && w1.items == w2.items[..|w1.items|]
      && |w1.starts| <= |w2.starts| && w1.starts == w2.starts[..|w1.starts|]
    decreases b1
  {
    if b1 > 0 {
      var w1 := Paginate(fetch, start, limit, b1);
      var w2 := Paginate(fetch, start, limit, b2);
      match fetch(start)
      case Err(f) =>
        assert w1 == Walk([], [start], Failed(f));
        assert w2 == Walk([], [start], Failed(f));
      case Ok(page) =>
        if |page| >= limit {
          var r1 := Paginate(fetch, start + limit, limit, b1 - 1);
          var r2 := Paginate(fetch, start + limit, limit, b2 - 1);
          assert w1 == Walk(page + r1.items, [start] + r1.starts, r1.stop);
          assert w2 == Walk(page + r2.items, [start] + r2.starts, r2.stop);
          MorePullsExtend(fetch, start + limit, limit, b1 - 1, b2 - 1);
          PrefixAppend(page, r1.items, r2.items);
          PrefixAppend([start], r1.starts, r2.starts);
        } else {
          assert w1 == Walk(page, [start], ShortPage);
          assert w2 == Walk(page, [start], ShortPage);
        }
    }
  }

  /** A walk that ended on its own (short page or failure) is the same
      whatever budget the consumer would have allowed. */
  lemma {:induction false} EndedWalkIsFinal(fetch: PageSource, start: int, limit: int, b1: nat, b2: nat)
    requires b1 <= b2
    requires !Paginate(fetch, start, limit, b1).stop.Budget?
    ensures Paginate(fetch, start, limit, b1) == Paginate(fetch, start, limit, b2)
    decreases b1
  {
    var w1 := Paginate(fetch, start, limit, b1);
    var w2 := Paginate(fetch, start, limit, b2);
    match fetch(start)
    case Err(f) =>
      assert w1 == Walk([], [start], Failed(f));
      assert w2 == Walk([], [start], Failed(f));
      assert w1 == w2;
    case Ok(page) =>
      if |page| >= limit {
        var r1 := Paginate(fetch, start + limit, limit, b1 - 1);
        var r2 := Paginate(fetch, start + limit, limit, b2 - 1);
        assert w1 == Walk(page + r1.items, [start] + r1.starts, r1.stop);
        assert w2 == Walk(page + r2.items, [start] + r2.starts, r2.stop);
        EndedWalkIsFinal(fetch, start + limit, limit, b1 - 1, b2 - 1);
        assert r1 == r2;
        assert w1 == w2;
      } else {
        assert w1 == Walk(page, [start], ShortPage);
        assert w2 == Walk(page, [start], ShortPage);
        assert w1 == w2;
      }
  }

  lemma PrefixAppend<T>(p: seq<T>, a: seq<T>, b: seq<T>)
    requires |a| <= |b| && a == b[..|a|]
    ensures |p + a| <= |p + b| && p + a == (p + b)[..|p + a|]
  {
    assert (p + b)[..|p + a|] == p + b[..|a|];
  }

  /** The part of `data` a well-behaved server returns for `start` and
      `limit`: at most `limit` items from offset `start`, clamped to the data. */
  function Window(data: seq<Json>, start: int, limit: int): (page: seq<Json>)
    ensures 0 <= start && 1 <= limit && start + limit <= |data| ==>
      page == data[start..start + limit]
    ensures 0 <= start <= |data| && 1 <= limit && |data| < start + limit ==>
      page == data[start..]
  {
    var lo := if start < 0 then 0 else if start > |data| then |data| else start;
    var hi := if start + limit < lo then lo else if start + limit > |data| then |data| else start + limit;
    data[lo..hi]
  }

  /** The page source answers every non-negative offset with the window of
      `data` it names. */
  ghost predicate ServesWindows(fetch: PageSource, data: seq<Json>, limit: int) {
    forall s :: 0 <= s ==> fetch(s) == Ok(Window(data, s, limit))
  }

  /** A full first page: the walk is that page followed by the walk from
      the next offset, on one fewer request. */
  lemma FullStep(fetch: PageSource, start: int, limit: int, budget: nat)
    requires budget > 0 && Full(fetch, start, limit)
    ensures var rest := Paginate(fetch, start + limit, limit, budget - 1);
      Paginate(fetch, start, limit, budget)
        == Walk(fetch(start).value + rest.items, [start] + rest.starts, rest.stop)
  {
  }

  /** `budget` requests of `limit` items from `start` reach past `n`:
      some request among them starts within `limit` of the end. */
  predicate Covers(start: int, limit: int, budget: nat, n: int)
    decreases budget
  {
    budget > 0 && (n < start + limit || Covers(start + limit, limit, budget - 1, n))
  }

  lemma {:induction false} CoversByProduct(start: int, limit: int, budget: nat, n: int)
    requires 1 <= limit && start <= n < start + budget * limit
    ensures Covers(start, limit, budget, n)
    decreases budget
  {
    assert budget != 0;
    if start + limit <= n {
      assert (start + limit) + (budget - 1) * limit == start + budget * limit;
      CoversByProduct(start + limit, limit, budget - 1, n);
    }
  }

  /** The induction behind `PaginateWindows`, without the arithmetic on the
      last offset. */
  lemma {:induction false} WindowsWalk(fetch: PageSource, data: seq<Json>, start: int, limit: int, budget: nat)
    requires 1 <= limit && 0 <= start <= |data|
    requires ServesWindows(fetch, data, limit)
    requires Covers(start, limit, budget, |data|)
    ensures var w := Paginate(fetch, start, limit, budget);
      && w.items == data[start..]
      && w.stop == ShortPage
      && |w.starts| >= 1
      && w.starts[|w.starts| - 1] <= |data| < w.starts[|w.starts| - 1] + limit
    decreases |data| - start
  {
    assert fetch(start) == Ok(Window(data, start, limit));
    if start + limit <= |data| {
      WindowsWalk(fetch, data, start + limit, limit, budget - 1);
      FullWindowStep(fetch, data, start, limit, budget);
    } else {
      ShortWindowStep(fetch, data, start, limit, budget);
    }
  }

  /** The short-page step of `WindowsWalk`: a window reaching past the data
      is the last page, and it holds the rest of the data. */
  lemma ShortWindowStep(fetch: PageSource, data: seq<Json>, start: int, limit: int, budget: nat)
    requires 1 <= limit && 0 <= start <= |data| < start + limit && budget > 0
    requires fetch(start) == Ok(Window(data, start, limit))
    ensures var w := Paginate(fetch, start, limit, budget);
      && w.items == data[start..]
      && w.stop == ShortPage
      && |w.starts| >= 1
      && w.starts[|w.starts| - 1] <= |data| < w.starts[|w.starts| - 1] + limit
  {
    ShortStep(fetch, start, limit, budget);
  }

  /** The full-page step of `WindowsWalk`: a full window in front of a walk
      that covers the rest of the data covers the data from `start`. */
  lemma FullWindowStep(fetch: PageSource, data: seq<Json>, start: int, limit: int, budget: nat)
    requires 1 <= limit && 0 <= start && start + limit <= |data| && budget > 0
    requires fetch(start) == Ok(Window(data, start, limit))
    requires var rest := Paginate(fetch, start + limit, limit, budget - 1);
      && rest.items == data[start + limit..]
      && rest.stop == ShortPage
      && |rest.starts| >= 1
      && rest.starts[|rest.starts| - 1] <= |data| < rest.starts[|rest.starts| - 1] + limit
    ensures var w := Paginate(fetch, start, limit, budget);
      && w.items == data[start..]
      && w.stop == ShortPage
      && |w.starts| >= 1
      && w.starts[|w.starts| - 1] <= |data| < w.starts[|w.starts| - 1] + limit
  {
    FullStep(fetch, start, limit, budget);
    var rest := Paginate(fetch, start + limit, limit, budget - 1);
    SliceSplit(data, start, start + limit);
    assert ([start] + rest.starts)[|rest.starts|] == rest.starts[|rest.starts| - 1];
  }

  lemma SliceSplit(data: seq<Json>, i: int, j: int)
    requires 0 <= i <= j <= |data|
    ensures data[i..j] + data[j..] == data[i..]
  {
  }

  /** A short first page ends the walk with that page. */
  lemma ShortStep(fetch: PageSource, start: int, limit: int, budget: nat)
    requires budget > 0 && fetch(start).Ok? && |fetch(start).value| < limit
    ensures Paginate(fetch, start, limit, budget) == Walk(fetch(start).value, [start], ShortPage)
  {
  }

  /** Against a server that pages honestly through `data`, the loop yields
      exactly the data from `start` on, and its last request is the first
      whose window reaches past the data: `m` requests where
      `start + (m - 1) * limit <= |data| < start + m * limit`. So when the
      remaining count is an exact multiple of `limit`, one more request is
      made and its empty answer ends the loop. */
  lemma PaginateWindows(fetch: PageSource, data: seq<Json>, start: int, limit: int, budget: nat)
    requires 1 <= limit && 0 <= start <= |data|
    requires ServesWindows(fetch, data, limit)
    requires start + budget * limit > |data|
    ensures var w := Paginate(fetch, start, limit, budget);
      && w.items == data[start..]
      && w.stop == ShortPage
      && var last := w.starts[|w.starts| - 1];
         last == start + (|w.starts| - 1) * limit && last <= |data| < last + limit
  {
    CoversByProduct(start, limit, budget, |data|);
    WindowsWalk(fetch, data, start, limit, budget);
    var w := Paginate(fetch, start, limit, budget);
    OffsetAt(start, limit, |w.starts|, |w.starts| - 1);
  }

  /** Page sizes 10, 10, 10, 4 with `limit` 10: 34 items, four requests. */
  lemma ShortLastPage()
    ensures var data := seq(34, i => JNum(i));
      var w := Paginate(s => Ok(Window(data, s, 10)), 0, 10, 10);
      && |w.items| == 34 && w.starts == [0, 10, 20, 30] && w.stop == ShortPage
  {
    var data := seq(34, i => JNum(i));
    var fetch: PageSource := s => Ok(Window(data, s, 10));
    PaginateWindows(fetch, data, 0, 10, 10);
    var w := Paginate(fetch, 0, 10, 10);
    assert |w.starts| == 4;
  }

  /** Page sizes 10, 10, 10, 10, 0 with `limit` 10: 40 items, and a fifth
      request whose empty answer is what ends the loop. */
  lemma ExactMultipleCostsOneMoreRequest()
    ensures var data := seq(40, i => JNum(i));
      var w := Paginate(s => Ok(Window(data, s, 10)), 0, 10, 10);
      && |w.items| == 40 && w.starts == [0, 10, 20, 30, 40] && w.stop == ShortPage
      && Window(data, 40, 10) == []
  {
    var data := seq(40, i => JNum(i));
    var fetch: PageSource := s => Ok(Window(data, s, 10));
    PaginateWindows(fetch, data, 0, 10, 10);
    var w := Paginate(fetch, 0, 10, 10);
    assert |w.starts| == 5;
  }

  /** With `limit` 0 no page is ever short, so the loop never ends on its
      own: only a failure or the consumer stops it. */
  lemma ZeroLimitNeverEnds(fetch: PageSource, start: int, budget: nat)
    ensures !Paginate(fetch, start, 0, budget).stop.ShortPage?
  {
  }
}

=== FILE: query.dfy ===
/** Query parameters as the client builds them before handing them to the
    transport, and the serialisation idioms the endpoint methods share. */
module Query {

  /** One parameter value. `Null` is Python's `None`: the client keeps such
      keys in the dictionary it passes on. `Opaque` stands for floating-point
      and date values (latitude, longitude, radius, dates) that the client
      passes through untouched. */
  datatype Param =
    | Null
    | Str(text: string)
    | Int(n: int)
    | Opaque(token: string)

  /** A parameter dictionary; key order plays no part in what is sent. */
  type Params = map<string, Param>

  /** `','.join(xs)` for a non-empty list. */
  function Join(xs: seq<string>): string
    requires xs != []
    decreases |xs|
  {
    if |xs| == 1 then xs[0] else xs[0] + "," + Join(xs[1..])
  }

  /** The inverse of `Join`: the comma-separated fields of `s`, like
      Python's `s.split(',')`. */
  function Split(s: string): (fields: seq<string>)
    ensures fields != []
    decreases |s|
  {
    if s == [] then [""]
    else if s[0] == ',' then [""] + Split(s[1..])
    else
      var rest := Split(s[1..]);
      [[s[0]] + rest[0]] + rest[1..]
  }

  predicate CommaFree(xs: seq<string>) {
    forall i :: 0 <= i < |xs| ==> ',' !in xs[i]
  }

  /** `','.join(xs) if xs else None`: a list option such as `extras`,
      `filters` or `source_filters`. */
  function ListParam(xs: seq<string>): (p: Param)
    ensures p == Null <==> xs == []
  {
    if xs == [] then Null else Str(Join(xs))
  }

  /** Reads a list option back from what `ListParam` produced. */
  function ListOf(p: Param): seq<string> {
    match p
    case Str(text) => Split(text)
    case _ => []
  }

  /** `'true' if b else 'false'`: a boolean flag. */
  function Flag(b: bool): (p: Param)
    ensures p == Str("true") || p == Str("false")
    ensures FlagOf(p) == b
  {
    Str(if b then "true" else "false")
  }

  /** Reads a flag back: only the literal `'true'` means true. */
  function FlagOf(p: Param): bool {
    p == Str("true")
  }

  /** `'html' if html_format else None`: the biography `format` option. */
  function HtmlFormat(html: bool): (p: Param)
    ensures html <==> p == Str("html")
    ensures !html <==> p == Null
  {
    if html then Str("html") else Null
  }

  /** The dictionary a paginating loop sends on one iteration: the fixed
      parameters together with the current `start` and `limit`. */
  function WithWindow(base: Params, start: int, limit: int): (q: Params)
    ensures q.Keys == base.Keys + {"start", "limit"}
    ensures q["start"] == Int(start) && q["limit"] == Int(limit)
    ensures forall k :: k in base && k != "start" && k != "limit" ==> q[k] == base[k]
  {
    base["start" := Int(start)]["limit" := Int(limit)]
  }

  /** Splitting a field followed by a comma and more text gives the field
      first, then the fields of the rest. */
  lemma {:induction false} SplitAfterField(x: string, rest: string)
    requires ',' !in x
    ensures Split(x + "," + rest) == [x] + Split(rest)
    decreases |x|
  {
    if x == [] {
      assert x + "," + rest == [','] + rest;
      assert ([','] + rest)[1..] == rest;
    } else {
      assert (x + "," + rest)[0] == x[0];
      assert (x + "," + rest)[1..] == x[1..] + "," + rest;
      SplitAfterField(x[1..], rest);
      assert [x[0]] + x[1..] == x;
    }
  }

  /** A comma-free field splits into itself. */
  lemma {:induction false} SplitField(x: string)
    requires ',' !in x
    ensures Split(x) == [x]
    decreases |x|
  {
    if x != [] {
      SplitField(x[1..]);
      assert [x[0]] + x[1..] == x;
    }
  }

  /** Joining then splitting gives the list back when no element holds a
      comma. */
  lemma {:induction false} SplitJoin(xs: seq<string>)
    requires xs != [] && CommaFree(xs)
    ensures Split(Join(xs)) == xs
    decreases |xs|
  {
    assert ',' !in xs[0];
    if |xs| == 1 {
      SplitField(xs[0]);
    } else {
      SplitAfterField(xs[0], Join(xs[1..]));
      assert CommaFree(xs[1..]) by {
        forall i | 0 <= i < |xs[1..]| ensures ',' !in xs[1..][i] {
          assert xs[1..][i] == xs[i + 1];
        }
      }
      SplitJoin(xs[1..]);
      assert [xs[0]] + xs[1..] == xs;
    }
  }

  /** A list option survives serialisation: the server can recover exactly
      the list the caller gave, and an empty list is sent as `None`. */
  lemma ListParamRoundTrip(xs: seq<string>)
    ensures CommaFree(xs) ==> ListOf(ListParam(xs)) == xs
  {
    if xs != [] && CommaFree(xs) {
      SplitJoin(xs);
    }
  }
}

=== FILE: search_generator.dfy ===
/** `SearchGenerator`, the lazy sequence the current client returns from
    `search_artist`, `search_label`, `search_release` and `search_track`, as
    an explicit state machine: each Python call (`next`, `_request`,
    `__len__`) is a function from the generator's state to its new state,
    its result and the requests it handed to the transport. */
module SearchGenerator {
  import opened Wrappers
  import opened Json
  import opened Errors
  import opened Query
  import opened Executor

  const NoExtrasMessage: string :=
    "The extra parameter has been set to False, you don't have access to the length of the results."

  /** What a generator is created with and never changes. */
  datatype Config = Config(
    client: Client,
    endpoint: string,
    query: Param,
    filters: seq<string>,
    autocomplete: bool,
    limit: int,
    extras: bool)

  /** The generator's position in its current page; it starts at -1 and is
      only ever incremented or reset to 0. */
  type Cursor = c: int | -1 <= c

  /** The generator's state. `results` is the current page and `length` the
      memoised total; `JNull` in either stands for Python's `None`. `start`
      is the offset of the next request. */
  datatype Gen = Gen(cfg: Config, start: int, cursor: Cursor, results: Json, length: Json)

  /** `SearchGenerator(...)`: nothing fetched, nothing counted. */
  function Create(cfg: Config, start: int): (g: Gen)
    ensures g.cfg == cfg && g.start == start
    ensures g.cursor == -1 && g.results == JNull && g.length == JNull
  {
    Gen(cfg, start, -1, JNull, JNull)
  }

  /** The entities the generator-backed searches cover. */
  datatype Entity = Artist | Label | Release

  function SearchPath(entity: Entity): (path: string)
    ensures |"search/"| < |path| && path[..|"search/"|] == "search/" && path[|path| - 1] == '/'
    ensures entity.Artist? <==> path == "search/artist/"
    ensures entity.Label? <==> path == "search/label/"
    ensures entity.Release? <==> path == "search/release/"
  {
    match entity
    case Artist => "search/artist/"
    case Label => "search/label/"
    case Release => "search/release/"
  }

  /** `search_artist`, `search_label` and `search_release` of the current
      client: a fresh generator over the entity's search path, nothing
      fetched yet. */
  function Search(c: Client, entity: Entity, query: Param, filters: seq<string>, autocomplete: bool,
                  start: int, limit: int, extras: bool): (g: Gen)
    ensures g.cfg.client == c && g.cfg.endpoint == SearchPath(entity)
    ensures g.cfg.query == query && g.cfg.filters == filters && g.cfg.autocomplete == autocomplete
    ensures g.cfg.limit == limit && g.cfg.extras == extras
    ensures g.start == start && g.cursor == -1 && g.results == JNull && g.length == JNull
  {
    Create(Config(c, SearchPath(entity), query, filters, autocomplete, limit, extras), start)
  }

  /** `search_artist`, `search_label` or `search_release` called with the
      query alone: no filters, `autocomplete=False`, `start=0`, `limit=10`
      and `extras=True`. */
  function SearchWithDefaults(c: Client, entity: Entity, query: Param): (g: Gen)
    ensures g.cfg.filters == [] && !g.cfg.autocomplete && g.cfg.extras
    ensures g.start == 0 && g.cfg.limit == 10
    ensures g.cfg.client == c && g.cfg.endpoint == SearchPath(entity) && g.cfg.query == query
    ensures g.cursor == -1 && g.results == JNull && g.length == JNull
  {
    Search(c, entity, query, [], false, 0, 10, true)
  }

  /** `search_track` of the current client: it passes `None` for
      `autocomplete`, which the generator sends as `'false'`. */
  function SearchTrack(c: Client, query: Param, filters: seq<string>, start: int, limit: int, extras: bool): (g: Gen)
    ensures g.cfg.client == c && g.cfg.endpoint == "search/track/"
    ensures g.cfg.query == query && g.cfg.filters == filters && !g.cfg.autocomplete
    ensures g.cfg.limit == limit && g.cfg.extras == extras
    ensures g.start == start && g.cursor == -1 && g.results == JNull && g.length == JNull
    ensures FlagOf(QueryAt(g.cfg, start)["autocomplete"]) == false
  {
    Create(Config(c, "search/track/", query, filters, false, limit, extras), start)
  }

  /** The dictionary `_request` sends for offset `start`. */
  function QueryAt(cfg: Config, start: int): (q: Params)
    ensures q.Keys == {"query", "filters", "autocomplete", "start", "limit", "extras"}
    ensures q["query"] == cfg.query
    ensures q["filters"] == Null <==> cfg.filters == []
    ensures CommaFree(cfg.filters) ==> ListOf(q["filters"]) == cfg.filters
    ensures q["autocomplete"] == Flag(cfg.autocomplete) && FlagOf(q["autocomplete"]) == cfg.autocomplete
    ensures q["start"] == Int(start) && q["limit"] == Int(cfg.limit)
    ensures q["extras"] == Flag(cfg.extras) && FlagOf(q["extras"]) == cfg.extras
  {
    ListParamRoundTrip(cfg.filters);
    map[
      "query" := cfg.query,
      "filters" := ListParam(cfg.filters),
      "autocomplete" := Flag(cfg.autocomplete),
      "start" := Int(start),
      "limit" := Int(cfg.limit),
      "extras" := Flag(cfg.extras)]
  }

  /** The executor's answer to the generator's query, by offset: what
      `client._request(endpoint, {...})` returns or raises for each `start`. */
  type Answers = int -> Result<Json, BlitzrError>

  /** The answers a transport gives: each offset is asked for with the
      dictionary `QueryAt` builds, through the executor. */
  function AnswersOf(cfg: Config, net: Transport): Answers {
    s => Request(cfg.client, net, cfg.endpoint, QueryAt(cfg, s))
  }

  /** A fetch's new state and the failure it raised, if any. The request it
      makes is always for the state's `start`. */
  datatype Fetched = Fetched(gen: Gen, fault: Option<Fault>)

  /** `_request`. If the executor raises, nothing changes. Otherwise `start`
      moves on by `limit`; with `extras` the answer must be an object (`_request`
      calls `.get` on it) whose `results` becomes the page and whose
      `total` becomes the memoised length, a missing key giving `None`;
      without `extras` the answer itself becomes the page. */
  function Fetch(g: Gen, ask: Answers): (f: Fetched)
    ensures f.gen.cfg == g.cfg && f.gen.cursor == g.cursor
    ensures ask(g.start).Err? ==> f.gen == g && f.fault == Some(Raise(ask(g.start).error))
    ensures ask(g.start).Ok? ==> f.gen.start == g.start + g.cfg.limit
    ensures ask(g.start).Ok? && !g.cfg.extras ==>
      f.fault == None && f.gen.results == ask(g.start).value && f.gen.length == g.length
    ensures ask(g.start).Ok? && g.cfg.extras && ask(g.start).value.JObj? ==>
      && f.fault == None
      && f.gen.results == Get(ask(g.start).value.fields, "results")
      && f.gen.length == Get(ask(g.start).value.fields, "total")
    ensures ask(g.start).Ok? && g.cfg.extras && !ask(g.start).value.JObj? ==>
      f.fault.Some? && f.fault.value.Malformed? && f.gen.results == g.results && f.gen.length == g.length
  {
    match ask(g.start)
    case Err(e) => Fetched(g, Some(Raise(e)))
    case Ok(answer) =>
      var moved := g.(start := g.start + g.cfg.limit);
      if !g.cfg.extras then
        Fetched(moved.(results := answer), None)
      else
        match answer
        case JObj(fields) =>
          Fetched(moved.(results := Get(fields, "results"), length := Get(fields, "total")), None)
        case _ =>
          Fetched(moved, Some(Malformed("the answer is not an object")))
  }

  /** What one call of `next` produced. */
  datatype Step = Yield(item: Json) | Stop | Fail(fault: Fault)

  datatype Pulled = Pulled(gen: Gen, step: Step, asked: seq<int>)

  /** The second half of `next`, after any fetch: the item under the cursor,
      or StopIteration once the cursor is past the page. */
  function Emit(g: Gen, asked: seq<int>): (p: Pulled)
    requires g.cursor >= 0
    ensures p.gen == g && p.asked == asked
    ensures p.step.Yield? <==> g.results.JArr? && g.cursor < |g.results.items|
    ensures p.step.Yield? ==> p.step.item == g.results.items[g.cursor]
    ensures p.step.Stop? <==> g.results.JArr? && g.cursor >= |g.results.items|
    ensures !g.results.JArr? ==> p.step.Fail? && p.step.fault.Malformed?
  {
    match g.results
    case JArr(items) =>
      if g.cursor < |items| then Pulled(g, Yield(items[g.cursor]), asked) else Pulled(g, Stop, asked)
    case _ => Pulled(g, Fail(Malformed("the page is not a list")), asked)
  }

  /** `next`. The cursor moves on first. A request is made exactly when no
      page is held yet or the cursor has reached `limit`, and it asks for the
      current `start`; a successful fetch resets the cursor to 0. Then the
      item under the cursor is returned if the page has one, and
      StopIteration is raised otherwise. Nothing remembers that
      StopIteration was raised: probing again keeps moving the cursor. */
  function Next(g: Gen, ask: Answers): (p: Pulled)
    ensures p.gen.cfg == g.cfg
    ensures |p.asked| <= 1
    ensures |p.asked| == 1 <==> g.results == JNull || g.cursor + 1 == g.cfg.limit
    ensures |p.asked| == 1 ==> p.asked[0] == g.start
    ensures p.asked == [] ==> p == Emit(g.(cursor := g.cursor + 1), [])
    ensures p.asked != [] && ask(g.start).Err? ==>
      p.step == Fail(Raise(ask(g.start).error)) && p.gen == g.(cursor := g.cursor + 1)
    ensures p.asked != [] && !p.step.Fail? ==> p.gen.cursor == 0 && p.gen.start == g.start + g.cfg.limit
    ensures p.step.Yield? ==>
      p.gen.results.JArr? && p.gen.cursor < |p.gen.results.items|
      && p.step.item == p.gen.results.items[p.gen.cursor]
    ensures p.step.Stop? ==> p.gen.results.JArr? && p.gen.cursor >= |p.gen.results.items|
  {
    var probe := g.(cursor := g.cursor + 1);
    if probe.results == JNull || probe.cursor == g.cfg.limit then
      var f := Fetch(probe, ask);
      if f.fault.Some? then Pulled(f.gen, Fail(f.fault.value), [probe.start])
      else Emit(f.gen.(cursor := 0), [probe.start])
    else Emit(probe, [])
  }

  /** What `next` does once it has fetched: on success it resets the cursor
      to 0 on the fetched page and emits from it, so it yields exactly when
      that page has a first element; on failure it raises the fetch's fault
      and keeps the fetch's state. */
  lemma NextAfterFetch(g: Gen, ask: Answers)
    requires g.results == JNull || g.cursor + 1 == g.cfg.limit
    ensures var f := Fetch(g.(cursor := g.cursor + 1), ask);
      f.fault.None? ==> Next(g, ask) == Emit(f.gen.(cursor := 0), [g.start])
    ensures var f := Fetch(g.(cursor := g.cursor + 1), ask);
      f.fault.Some? ==> Next(g, ask) == Pulled(f.gen, Fail(f.fault.value), [g.start])
    ensures var f := Fetch(g.(cursor := g.cursor + 1), ask);
      Next(g, ask).step.Yield? <==> f.fault.None? && f.gen.results.JArr? && f.gen.results.items != []
  {
  }

  /** Python's `x or x == 0` on the memoised total: a total is known once it
      is anything but `None` or an empty string, list or object; 0 counts as
      known. */
  predicate Known(length: Json) {
    Truthy(length) || EqualsZero(length)
  }

  datatype Counted = Counted(gen: Gen, total: Result<Json, Fault>, asked: seq<int>)

  /** `__len__`. A known total is returned as is, with no request. An unknown
      one is fetched with exactly one request when `extras` is on (that
      fetch moves `start` on and replaces the page, but not the cursor),
      and is refused with a ConfigurationException when it is off. */
  function Len(g: Gen, ask: Answers): (r: Counted)
    ensures Known(g.length) ==> r == Counted(g, Ok(g.length), [])
    ensures !Known(g.length) && !g.cfg.extras ==>
      r == Counted(g, Err(Raise(ConfigurationError(NoExtrasMessage))), [])
    ensures !Known(g.length) && g.cfg.extras ==>
      && r.asked == [g.start]
      && r.gen == Fetch(g, ask).gen
      && r.gen.cfg == g.cfg
      && r.gen.cursor == g.cursor
      && (ask(g.start).Err? ==> r.gen == g && r.total == Err(Raise(ask(g.start).error)))
      && (ask(g.start).Ok? && ask(g.start).value.JObj? ==>
            && r.total == Ok(Get(ask(g.start).value.fields, "total"))
            && r.gen.results == Get(ask(g.start).value.fields, "results"))
      && (ask(g.start).Ok? && !ask(g.start).value.JObj? ==>
            && r.total.Err? && r.total.error.Malformed?
            && r.gen == g.(start := g.start + g.cfg.limit))
      && (r.total.Ok? ==>
            r.total.value == r.gen.length && r.gen.start == g.start + g.cfg.limit
            && ask(g.start).Ok? && ask(g.start).value.JObj?
            && r.gen.length == Get(ask(g.start).value.fields, "total"))
  {
    if Known(g.length) then Counted(g, Ok(g.length), [])
    else if g.cfg.extras then
      var f := Fetch(g, ask);
      if f.fault.Some? then Counted(f.gen, Err(f.fault.value), [g.start])
      else Counted(f.gen, Ok(f.gen.length), [g.start])
    else Counted(g, Err(Raise(ConfigurationError(NoExtrasMessage))), [])
  }

  /** What iterating the generator with `for x in gen` produced, pulling at
      most `pulls` times: the items, the final state, how it ended (`None`
      if the consumer stopped pulling first) and the offsets asked for. */
  datatype Drained = Drained(items: seq<Json>, gen: Gen, end: Option<Step>, asked: seq<int>)

  function Drain(g: Gen, ask: Answers, pulls: nat): (d: Drained)
    ensures d.end.Some? ==> !d.end.value.Yield?
    ensures |d.items| <= pulls
    decreases pulls
  {
    if pulls == 0 then Drained([], g, None, [])
    else
      var p := Next(g, ask);
      if p.step.Yield? then
        var rest := Drain(p.gen, ask, pulls - 1);
        Drained([p.step.item] + rest.items, rest.gen, rest.end, p.asked + rest.asked)
      else Drained([], p.gen, Some(p.step), p.asked)
  }

  /** `n` calls of `next`, the caller catching any exception, so that a
      StopIteration or a failure does not end the probing and the generator
      is asked again. */
  datatype Probed = Probed(steps: seq<Step>, gen: Gen, asked: seq<int>)

  function Probes(g: Gen, ask: Answers, n: nat): (r: Probed)
    ensures |r.steps| == n
    decreases n
  {
    if n == 0 then Probed([], g, [])
    else
      var p := Next(g, ask);
      var rest := Probes(p.gen, ask, n - 1);
      Probed([p.step] + rest.steps, rest.gen, p.asked + rest.asked)
  }
}

=== FILE: wrappers.dfy ===
/** Failure-carrying wrappers used throughout the model. */
module Wrappers {

  /** An optional value; `None` plays the part of Python's `None` where a
      value may be absent. */
  datatype Option<+T> = None | Some(value: T)

  /** Either a value or the error that replaced it; the model's stand-in for
      a Python call that returns or raises. */
  datatype Result<+T, +E> = Ok(value: T) | Err(error: E)
}
